=== FILE: README.md ===
# jquery.attachValidation — a Dafny model of its error summary

`jquery.attachValidation.js` is a jQuery plugin that attaches client-side
validation to forms and keeps an *error summary* next to the form. The
summary is a header plus a list with one line per invalid field. Each line
reads "label: message", and its `<label for>` points back at the field. Fields
inside a `.field-group` share one summary label, the group header. The plugin
also makes sure only one inline error message per group stays on screen.

This project models the part of the plugin that decides what the summary and
the inline error labels show:

- `labels.dfy` (module `Labels`) covers `getLabelText`. It picks the group
  header or the field's own label. It strips a trailing `*` and then
  `/:?[ ]*$/` (JavaScript's leftmost-match `replace`), then appends `": "`.
- `markup.dfy` (module `Markup`) covers `getErrorListItem`: the markup of one
  summary line, and a reader that turns the markup back into id and message.
- `summary.dfy` (module `ErrorSummary`) models the summary list itself.
  - Entries are list nodes with identity keys. `links` stands for each field's
    `$errorSummaryListItem` property.
  - `initialiseErrorSummary` is `Initialise`.
  - The create-or-update step of `showErrors` is `Record`.
  - The summary part of `highlight` is `Reveal`, and of `unhighlight` is `Drop`.
  - `Valid` is the invariant all of these keep: one entry per linked field,
    and the links agree with the list.
- `groupsync.dfy` (module `GroupSync`) covers `syncFieldGroupValidation`.
  - The first `.each` is `Unmark`: it clears every marker and re-shows every
    reached entry.
  - The second `.each`, over the labels that survive `.filter(':visible').filter(':gt(0)')`, is `Suppress`.
  - `Sync` composes the two. Its contract gives the result in closed form.
- `postcode.dfy` (module `Postcode`) covers the `postcode` validator method.
  - It models the pattern character class by character class, with ASCII
    case folding for the `i` flag.
  - It models `RegExp.prototype.test` as a scan over every start position.
- `binder.dfy` (module `Binder`) covers the three hooks the plugin installs
  in the validation engine: `highlight`, `unhighlight` and `showErrors`.
  They act on a `Form` made of the summary, the error-state classes and the
  inline labels of each group.
  - `showErrors` records the errors, then calls the engine's
    `defaultShowErrors` (line 252), then syncs the pushed groups.
  - `defaultShowErrors` calls `highlight` on the field of every error and then
    `unhighlight` on every element the engine found valid. The model applies
    these calls as `HighlightAll` and `UnhighlightAll`. The list of valid
    elements is an input.

The DOM is replaced by plain values:
- A label lookup is a `LabelIndex` map from field id to the label text and the
  enclosing group's header.
- An inline error label is an `ErrorLabel`. It records its linked field,
  whether it is visible (`:visible`, an input to the model) and whether it
  carries `label-error-msgThidden`.
- A summary list item is an `Entry` with a key, a field, a message and a shown
  flag.

Some behaviours of the code that are easy to misread:
- A label `"Email*:  "` normalises to `"Email*: "`, not `"Email: "`. The `*`
  is only stripped when it is the very last character
  (`Labels.NormaliseHiddenStarExample`).
- Syncing a group hides the summary entries of the visible labels after the
  first. Only the first one stays shown (`GroupSync.SyncEntryFollowsLabel`).
- `showErrors` calls `initialiseErrorSummary($errorSummary)` with no header.
  So the header text is always the container's `data-header`, even on
  updates (`Binder.ShowErrors`).

## Model

| member | source | states |
|---|---|---|
| Labels.DropMarker | jquery.attachValidation.js:133 | `/\*$/` removes at most one character, and it does so exactly when the text ends in `*`. The result is a prefix of the input. |
| Labels.TrimSpaces | jquery.attachValidation.js:133 | Returns a prefix with only spaces after it and no trailing space of its own. |
| Labels.DropColonTail | jquery.attachValidation.js:133 | Removes the leftmost suffix of the form `:?` plus spaces. What remains is a prefix, what was cut has that form, and no shorter prefix would have been a match. |
| Labels.DropColonTailUnique | jquery.attachValidation.js:133 | Any cut point with the leftmost-match property is the one `DropColonTail` uses, so the replace is uniquely determined. |
| Labels.Normalise | jquery.attachValidation.js:133 | The normalised label always ends in `": "`, its stem is a prefix of the raw text, and an empty label gives `": "`. |
| Labels.NormaliseIdempotent | jquery.attachValidation.js:133 | Normalising an already normalised label returns it unchanged. |
| Labels.NormaliseStarExample | jquery.attachValidation.js:133 | `"Name *"` becomes `"Name: "`: the marker and the space before it go. |
| Labels.NormaliseColonExample | jquery.attachValidation.js:133 | `"Email:  "` becomes `"Email: "`. |
| Labels.NormaliseHiddenStarExample | jquery.attachValidation.js:133 | `"Email*:  "` becomes `"Email*: "`: a `*` before the colon is kept. |
| Labels.LabelText | jquery.attachValidation.js:120-134 | Every label text ends in `": "`. A field with no label element gets just `": "`. |
| Labels.GroupMembersShareLabel | jquery.attachValidation.js:126-131 | Two fields in the same group get the same label, the normalised group header, whatever their own labels say. |
| Labels.SummaryMessage | jquery.attachValidation.js:234 | An entry's text ends with the validator's message, unchanged, after at least two characters of label text. That the label part is the field's label, ending in `": "`, is stated by `SummaryMessageParts`. |
| Labels.SummaryMessageParts | jquery.attachValidation.js:233-234 | A summary message splits into the field's label, which ends in `": "`, followed by the validator's message unchanged. |
| Markup.ListItem | jquery.attachValidation.js:137-139 | The item markup holds the fixed `<li><label for="`, `">` and `</label></li>` pieces with the id and the message in between, unescaped. |
| Markup.ParseListItem | jquery.attachValidation.js:137-139 | Whatever it reads back rebuilds the same markup, and the id it reads holds no quote. |
| Markup.ParseListItemRoundTrip | jquery.attachValidation.js:137-139 | For an id without a quote, reading back a built item gives its id and message. |
| ErrorSummary.FreshValid | jquery.attachValidation.js:112-113 | A page before any validation pass, with an empty container and no links, is in a reachable state, so the promises that assume `Valid` hold from the first pass on. |
| ErrorSummary.Initialise | jquery.attachValidation.js:108-117 | An empty container gets the header and an empty list. Otherwise the entries stay and only an existing header's text changes. Links and validity are kept. |
| ErrorSummary.InitialiseIdempotent | jquery.attachValidation.js:108-117 | Initialising twice with the same header is the same as once: no second header, and the list is not emptied. |
| ErrorSummary.Record | jquery.attachValidation.js:237-245 | An unlinked field gets a new shown entry appended and linked. A linked field has only its entry's message replaced, in place. Afterwards the field says the message, and every other field still says what it said. |
| ErrorSummary.RecordIdempotent | jquery.attachValidation.js:237-245 | Recording the same message for a field twice is the same as once. |
| ErrorSummary.Reveal | jquery.attachValidation.js:202-205 | Only the linked entry's shown flag changes, and it becomes shown. No entry is created, and a field without a link changes nothing. |
| ErrorSummary.Drop | jquery.attachValidation.js:213-216 | The linked entry leaves the list, the other entries keep their order, and the link is deleted. Validity is kept. |
| ErrorSummary.SpliceValid | jquery.attachValidation.js:213-216 | Removing a field's entry together with its link leaves a valid summary. |
| ErrorSummary.DropThenRecordIsFresh | jquery.attachValidation.js:213-245 | After `unhighlight`, the next error for that field appends a fresh entry with a new key at the end of the list. |
| ErrorSummary.DropIsWithout | jquery.attachValidation.js:213-216 | In a valid summary, removing a field's linked entry leaves exactly the old list without the entries of that field, in order. |
| ErrorSummary.WithoutSays | jquery.attachValidation.js:207-217 | Removing the entries and links of some fields leaves every other field saying what it said. |
| ErrorSummary.SaysReshown | jquery.attachValidation.js:152-164 | Showing or hiding entries changes no field's message. |
| GroupSync.Unmark | jquery.attachValidation.js:144-155 | Every label loses its marker. An entry that some label reaches is shown. Every other entry is unchanged. |
| GroupSync.Suppress | jquery.attachValidation.js:156-168 | Exactly the visible labels after the first get the marker. Exactly the entries they reach are hidden. |
| GroupSync.Sync | jquery.attachValidation.js:141-170 | The result in closed form. Label `j` is marked iff it is visible and some earlier label is visible. An entry that such a marked label reaches ends hidden. Otherwise an entry that any label reaches ends shown, and every other entry keeps its flag. Links, messages and validity are kept. |
| GroupSync.SyncIdempotent | jquery.attachValidation.js:141-170 | Syncing a group a second time changes nothing. |
| GroupSync.SyncDisplaysFirstVisibleOnly | jquery.attachValidation.js:156-168 | After a sync, a label is displayed iff it is the first visible one, so at most one label per group is displayed. |
| GroupSync.SyncEntryFollowsLabel | jquery.attachValidation.js:141-170 | With one label per field, a reached entry ends shown exactly when its label is not a visible one after the first. |
| Postcode.Matches | jquery.attachValidation.js:96 | A whole string matches the postcode pattern iff it is `GIR 0AA` (ASCII letters in either case) or an outward code (area letter, district), at most one space, and an inward code (digit, two unit letters), each character class as in the pattern. Every match has 5 to 8 characters. |
| Postcode.TestPostcode | jquery.attachValidation.js:95-97 | The value is accepted iff the field is optional-and-empty or some substring matches the postcode pattern, case-insensitively. |
| Postcode.MatchLength | jquery.attachValidation.js:96 | Every match of the pattern has 5 to 8 characters. |
| Postcode.PostcodeExamples | jquery.attachValidation.js:96 | `SW1A 1AA` and `gir 0aa` pass, `ZZZZ` fails, and an optional empty value passes. |
| Postcode.UnanchoredAcceptsSurroundingText | jquery.attachValidation.js:96 | As written, `"not SW1A 1AA at all"` passes, although it is not a postcode. |
| Postcode.AnchoredIsStricter | jquery.attachValidation.js:96 | The anchored rule accepts only 5 to 8 character values, and nothing the rule as written rejects. |
| Postcode.TestPostcodeAnchored | jquery.attachValidation.js:95-97 | The corrected validator accepts exactly the optional-and-empty values and the values that are one whole postcode, which have 5 to 8 characters. |
| Binder.HeaderText | jquery.attachValidation.js:109 | A non-empty explicit header wins. A missing or empty one falls back to `data-header`. |
| Binder.Highlight | jquery.attachValidation.js:198-206 | The item and the group get their error classes, and the field's existing entry is shown. No entry is created. |
| Binder.Unhighlight | jquery.attachValidation.js:207-217 | The item loses its error class but the group keeps its class. The entry and its link are removed. |
| Binder.RecordAll | jquery.attachValidation.js:230-246 | Links cover exactly the old fields plus the announced ones, and every old link keeps its target. Old entries keep their places, keys and shown flags (line 242 replaces only the label html). New entries are shown, and only for fields that had none. Each field ends with the text of its last notice. Other fields keep their messages. |
| Binder.HighlightAll | jquery.attachValidation.js:198-206 | After `highlight` on every error's field, those fields' items and groups carry the error classes, and an entry is shown iff it was shown or one of those fields links to it. Nothing else changes, and validity is kept. |
| Binder.UnhighlightAll | jquery.attachValidation.js:207-217 | After `unhighlight` on every valid field, those fields lose their item class and their links, and a valid summary keeps exactly the entries of the other fields, in order. Group classes stay. |
| Binder.Announce | jquery.attachValidation.js:230-234 | One notice per error, in order, naming the error's field and carrying "label: message" for it. |
| Binder.SyncOne | jquery.attachValidation.js:254 | One sync of a pushed group: its labels are marked iff visible after the first visible one, an entry none of its labels reaches keeps its flag, one they reach ends hidden iff a visible label after the first reaches it. Other groups, links, messages and classes are kept. |
| Binder.GroupsOf | jquery.attachValidation.js:247-249 | A group is pushed iff some error's field lies in it, and at most one group is pushed per error. |
| Binder.SyncGroups | jquery.attachValidation.js:253-255 | Syncing the pushed groups in turn leaves every pushed group's labels as one sync would. An entry no label of a pushed group reaches keeps its shown flag. An entry reached from one pushed group only ends shown iff no visible label after that group's first reaches it. Other groups are untouched, and links, messages and classes are kept. |
| Binder.AnnounceFields | jquery.attachValidation.js:230-236 | The announced lines name the same fields, in the same order, as the error list. |
| Binder.ShowErrors | jquery.attachValidation.js:218-256 | Error fields gain the item class and valid fields lose it; error groups gain the group class. With errors the summary exists and its header (new or existing) reads the `data-header`; with none, header and container are unchanged. Links cover the old and erroneous fields minus the valid ones, and an old link of a field not found valid keeps its target. Each error field not found valid says "label: message" of its last error. A field in neither list keeps its message, and keeps its shown flag when no pushed group reaches its entry. An error field's entry that no pushed group reaches ends shown; one reached from a single pushed group ends hidden iff a visible label after that group's first reaches it. In every group with an error only the first visible label is displayed; other groups are untouched. |
| Binder.RecordStage | jquery.attachValidation.js:224-251 | With no errors the summary is untouched. Otherwise the summary exists, a new or existing header reads the `data-header`, links cover the old and the erroneous fields, and in a valid summary each error field says "label: message" of its last error. |
| Binder.RecordStaged | jquery.attachValidation.js:224-251 | The recording half leaves the summary as `RecordStage` and `RecordKeeps` together describe it. |
| Binder.RecordKeeps | jquery.attachValidation.js:224-251 | Recording keeps every old link's target; on a non-blank container the old entries keep their places, keys and shown flags; in a valid summary a field with no error keeps its message. |
| Binder.ShowErrorsShape | jquery.attachValidation.js:198-251 | After recording and the hooks: the item and group classes, the header, the link set, and the targets of old links of fields not found valid, as `ShowErrors` states them. |
| Binder.ShowErrorsLabels | jquery.attachValidation.js:141-170 | After the syncs: the inline label groups keep their keys and lengths, each pushed group displays only its first visible label, other groups are untouched, and an entry reached from a single pushed group is hidden iff a visible label after that group's first reaches it. |
| Binder.ShowErrorsMessages | jquery.attachValidation.js:198-251 | A valid summary stays valid, and each error field not found valid says "label: message" of its last error. |
| Binder.ShowErrorsKeepsMessages | jquery.attachValidation.js:198-251 | In a valid summary a field in neither the error list nor the valid list keeps every message it had. |
| Binder.ShowErrorsShown | jquery.attachValidation.js:198-256 | In a valid summary an error field's entry that no pushed group reaches ends shown, and a field in neither list keeps its shown flag when no pushed group reaches its entry. |
| Binder.PassKeepsSays | jquery.attachValidation.js:198-217 | Highlighting, unhighlighting and syncing keep every message of a field not found valid. |
| Binder.PassKeepsShown | jquery.attachValidation.js:198-217 | A field with no error, not found valid, whose entry no pushed group reaches, ends with the shown flag it had before recording. |
| Binder.KeepsShownOne | jquery.attachValidation.js:198-217 | The same for one such field: neither `highlight`, `unhighlight` nor a sync touches its entry's flag. |
| Binder.ShownForAt | jquery.attachValidation.js:202-205 | In a valid summary a field shows exactly when the entry its link leads to is shown. |
| Binder.SyncedDisplays | jquery.attachValidation.js:156-168 | After the syncs, a label of a pushed group is displayed exactly when it is the first visible one. |
| Binder.PassSays | jquery.attachValidation.js:198-217 | Highlighting, unhighlighting and syncing keep what each error field says, unless that field was found valid. |
| Binder.PassShown | jquery.attachValidation.js:198-206 | After the hooks and syncs, an error field's entry that no pushed group reaches is shown. |
| Binder.SyncedHides | jquery.attachValidation.js:156-168 | After the syncs, an entry reached from one pushed group only is hidden exactly when a visible label after that group's first reaches it. |

## Left out

- DOM lookup and traversal (`closest`, `find`, selectors). The model takes
  their results as inputs: the `LabelIndex`, each field's group, and the
  inline labels of each group.
- `$.fn.attachValidation` itself: option merging with `$.extend`, the message
  table, `attachValidationToForms`, form binding and the `window.log` trace.
  They configure or log. One option does reach the summary: line 227 uses
  `settings.errorSummary.errorSummaryMessagesClass` to choose which `ul` of
  the container receives the entries. The model has a single list and
  leaves that choice out.
- `errorPlacement` (lines 189-196) places each inline error label: at the end
  of the field's `.field-group`, or right after the field. It also records
  the field on the label. So a group's labels stand in the order they were
  created, not in field order, and `.filter(':gt(0)')` on line 157 reads that
  order. The model takes each group's labels, in document order, as the
  input `Form.inline`.
- Fields are identified by their id. The source keeps each summary link on
  the DOM element itself (lines 203, 213-215, 237-245), while the model keys
  links by the id string. Ids are taken to be present and unique. Two
  elements sharing an id, or both without one, would get separate entries in
  the source but share one entry and link here. The label lookup on line 121
  relies on unique ids as well.
- `window.log` (line 142) is not defined by this plugin. The model assumes
  the page defines it. Without it, `syncFieldGroupValidation` throws a
  `TypeError` on its first line, so a `showErrors` that pushed a group stops
  after `defaultShowErrors` and no group is synced.
- Binder.ShowErrors: the label rendering of the engine's `defaultShowErrors`
  (creating, showing and hiding the inline error labels) is taken as given in
  the form's inline labels. Its `highlight` and `unhighlight` calls are
  modelled. Which elements the engine counts as valid is an input.
- HTML escaping: none is done by the source, and `Markup.ListItem` keeps it
  that way. `Markup.ParseListItemRoundTrip` requires a quote-free id for that
  reason.
- The replacement of a line's message uses `.html(errorMessage)`. The model
  stores the message text; HTML parsing is not modelled.
- A blank summary gets its header through `.html(...)` (line 113), so the
  header is parsed as HTML there. An existing header is set with `.text`
  (line 115). The model stores the header text in both cases.
- Each field is taken to sit in its own `.field-item`. When fields share one,
  `unhighlight` on any of them clears the class for all (line 211). The model
  keeps the class per field.
- An inline error label with no `linked-element` data makes the source throw a
  TypeError on `$element.length`. Every modelled label carries a link field
  (`None` for a linked element set that is empty), so the throw is not
  modelled.
- A summary container that is missing from the page, or whose markup is
  neither empty nor holds the list, is not modelled. `ErrorSummary.Record`
  requires an initialised summary, which `showErrors` always creates first.
- A missing `data-header` is not modelled; the model's header text is always
  a string. In the source, a missing one gives the header "undefined" only on
  a blank container, through the string concatenation on line 113. On line
  115 `$header.text(undefined)` is jQuery's getter, so an existing header
  keeps its old text.
- `this.optional(element)` is an input flag of `Postcode.TestPostcode`.
- Several label elements for one id are not modelled. The `LabelIndex` holds
  one label per field.
- Case folding in the postcode rule covers ASCII letters only, as the `i` flag
  without `u` does for this pattern. Characters outside ASCII never match.
- GroupSync.Sync: idempotence is proved for repeated syncs of one group in a
  row. Commutation of syncs of different groups that share a field is not
  stated.

## Findings

| source | as written | input that shows it | evidently intended | confidence | as-written member | corrected member |
|---|---|---|---|---|---|---|
| jquery.attachValidation.js:96 | the postcode pattern has no `^`/`$` anchors, so `test` accepts any value that merely contains a postcode | `"not SW1A 1AA at all"` passes | the whole value must be a postcode | medium; not executed | Postcode.UnanchoredAcceptsSurroundingText | Postcode.TestPostcodeAnchored |

=== FILE: binder.dfy ===
/**
 * The hooks the extension installs into the validation engine: `highlight`,
 * `unhighlight` and `showErrors`, composed from the label, summary and
 * group-sync models.
 */
module Binder {
  import opened Wrappers
  import opened Labels
  import opened ErrorSummary
  import opened GroupSync

  type GroupId = string

  /** A form field: its id and the `.field-group` it sits in, if any. */
  datatype Field = Field(id: FieldId, group: Option<GroupId>)

  /** One item of the engine's error list: the field and the rule's message. */
  datatype FieldError = FieldError(field: Field, message: string)

  /** The error-state classes: `field-itemTerror` on the `.field-item` of the
      fields in `items`, `field-groupTerror` on the groups in `groups`. */
  datatype Markers = Markers(items: set<FieldId>, groups: set<GroupId>)

  /** What the hooks change on a form: its error summary, the error-state
      classes, and the inline error labels of each field group. */
  datatype Form = Form(summary: Summary, markers: Markers, inline: map<GroupId, seq<ErrorLabel>>)

  /** `header || $errorSummary.data('header')`: an explicit header unless it
      is missing or empty, else the container's `data-header`. */
  function HeaderText(header: Option<string>, dataHeader: string): (r: string)
    ensures header.Some? && header.value != "" ==> r == header.value
    ensures header.None? || header.value == "" ==> r == dataHeader
  {
    match header
    case Some(h) => if h != "" then h else dataHeader
    case None => dataHeader
  }

  /** `highlight`: marks the field's item and group as in error and re-shows
      its summary entry if it has one; it never creates an entry. */
  function Highlight(f: Form, field: Field): (r: Form)
    ensures r.markers.items == f.markers.items + {field.id}
    ensures field.group.Some? ==> r.markers.groups == f.markers.groups + {field.group.value}
    ensures field.group.None? ==> r.markers.groups == f.markers.groups
    ensures r.summary == Reveal(f.summary, field.id) && r.inline == f.inline
    ensures Valid(f.summary) ==> Valid(r.summary)
    ensures Valid(f.summary) && field.id in f.summary.links ==> ShownFor(r.summary, field.id)
    ensures field.id !in f.summary.links ==> r.summary == f.summary
  {
    var groups := match field.group
      case Some(g) => f.markers.groups + {g}
      case None => f.markers.groups;
    Form(Reveal(f.summary, field.id), Markers(f.markers.items + {field.id}, groups), f.inline)
  }

  /** `unhighlight`: clears the item's error class (the group's stays) and
      removes the field's summary entry together with its link. */
  function Unhighlight(f: Form, field: Field): (r: Form)
    ensures r.markers.items == f.markers.items - {field.id}
    ensures r.markers.groups == f.markers.groups
    ensures r.summary == Drop(f.summary, field.id) && r.inline == f.inline
    ensures field.id !in r.summary.links
    ensures Valid(f.summary) ==> Valid(r.summary)
  {
    Form(Drop(f.summary, field.id), Markers(f.markers.items - {field.id}, f.markers.groups), f.inline)
  }

  /** The ids of a list of fields. */
  function FieldIds(fields: seq<Field>): set<FieldId> {
    set k | 0 <= k < |fields| :: fields[k].id
  }

  /** The groups the fields of an error list sit in. */
  function ErrorGroups(errors: seq<FieldError>): set<GroupId> {
    set k | 0 <= k < |errors| && errors[k].field.group.Some? :: errors[k].field.group.value
  }

  lemma ErrorSetsSplit(errors: seq<FieldError>)
    requires |errors| > 0
    ensures ErrorIds(errors) == {errors[0].field.id} + ErrorIds(errors[1..])
    ensures ErrorGroups(errors) ==
      (if errors[0].field.group.Some? then {errors[0].field.group.value} else {}) + ErrorGroups(errors[1..])
  {
    forall k | 1 <= k < |errors|
      ensures errors[1..][k - 1] == errors[k]
    {
    }
    forall x | x in ErrorIds(errors[1..])
      ensures x in ErrorIds(errors)
    {
      var k :| 0 <= k < |errors[1..]| && errors[1..][k].field.id == x;
      assert errors[k + 1].field.id == x;
    }
    forall g | g in ErrorGroups(errors[1..])
      ensures g in ErrorGroups(errors)
    {
      var k :| 0 <= k < |errors[1..]| && errors[1..][k].field.group == Some(g);
      assert errors[k + 1].field.group == Some(g);
    }
  }

  lemma FieldIdsSplit(fields: seq<Field>)
    requires |fields| > 0
    ensures FieldIds(fields) == {fields[0].id} + FieldIds(fields[1..])
  {
    forall k | 1 <= k < |fields|
      ensures fields[1..][k - 1] == fields[k]
    {
    }
    forall x | x in FieldIds(fields[1..])
      ensures x in FieldIds(fields)
    {
      var k :| 0 <= k < |fields[1..]| && fields[1..][k].id == x;
      assert fields[k + 1].id == x;
    }
  }

  /** Some field of `ids` is linked to the entry with key `k`. */
  ghost predicate LinkedFrom(links: map<FieldId, nat>, ids: set<FieldId>, k: nat) {
    exists x :: x in ids && x in links && links[x] == k
  }

  lemma LinkedFromSplit(links: map<FieldId, nat>, x: FieldId, ids: set<FieldId>, k: nat)
    ensures LinkedFrom(links, {x} + ids, k) <==> (x in links && links[x] == k) || LinkedFrom(links, ids, k)
  {
    if LinkedFrom(links, {x} + ids, k) {
      var y :| y in {x} + ids && y in links && links[y] == k;
      if y != x {
        assert LinkedFrom(links, ids, k);
      }
    }
    if x in links && links[x] == k {
      assert x in {x} + ids;
    }
  }

  /** What `highlight` on the field of every error promises: the item and
      group classes of those fields are set, the entries linked from them
      are shown, and nothing else changes. */
  ghost predicate Highlighted(f: Form, r: Form, errors: seq<FieldError>) {
    && r.markers == Markers(f.markers.items + ErrorIds(errors), f.markers.groups + ErrorGroups(errors))
    && r.inline == f.inline
    && r.summary == f.summary.(entries := r.summary.entries)
    && |r.summary.entries| == |f.summary.entries|
    && (forall i :: 0 <= i < |f.summary.entries| ==>
          r.summary.entries[i] == f.summary.entries[i].(shown :=
            f.summary.entries[i].shown || LinkedFrom(f.summary.links, ErrorIds(errors), f.summary.entries[i].key)))
    && (Valid(f.summary) ==> Valid(r.summary))
  }

  /** The first loop of the engine's `defaultShowErrors`, the only caller of
      the hooks: `highlight` on the field of every error, in list order. */
  function HighlightAll(f: Form, errors: seq<FieldError>): (r: Form)
    ensures Highlighted(f, r, errors)
    decreases |errors|
  {
    if |errors| == 0 then
      assert ErrorIds(errors) == {} && ErrorGroups(errors) == {};
      f
    else
      var f1 := Highlight(f, errors[0].field);
      var r := HighlightAll(f1, errors[1..]);
      HighlightAllStep(f, f1, r, errors);
      r
  }

  lemma HighlightAllStep(f: Form, f1: Form, r: Form, errors: seq<FieldError>)
    requires |errors| > 0 && f1 == Highlight(f, errors[0].field)
    requires Highlighted(f1, r, errors[1..])
    ensures Highlighted(f, r, errors)
  {
    ErrorSetsSplit(errors);
    var x := errors[0].field.id;
    var links := f.summary.links;
    forall i | 0 <= i < |f.summary.entries|
      ensures r.summary.entries[i] == f.summary.entries[i].(shown :=
        f.summary.entries[i].shown || LinkedFrom(links, ErrorIds(errors), f.summary.entries[i].key))
    {
      LinkedFromSplit(links, x, ErrorIds(errors[1..]), f.summary.entries[i].key);
    }
  }

  /** What `unhighlight` on every valid field promises: their item classes
      are cleared, their links deleted and, in a valid summary, exactly
      their entries removed; the group classes stay. */
  ghost predicate Unhighlighted(f: Form, r: Form, valid: seq<Field>) {
    && r.markers == Markers(f.markers.items - FieldIds(valid), f.markers.groups)
    && r.inline == f.inline
    && r.summary == f.summary.(entries := r.summary.entries, links := f.summary.links - FieldIds(valid))
    && (Valid(f.summary) ==> Valid(r.summary) && r.summary.entries == Without(f.summary.entries, FieldIds(valid)))
  }

  /** The second loop of `defaultShowErrors`: `unhighlight` on every element
      the engine found valid, in order. */
  function UnhighlightAll(f: Form, valid: seq<Field>): (r: Form)
    ensures Unhighlighted(f, r, valid)
    decreases |valid|
  {
    if |valid| == 0 then
      assert FieldIds(valid) == {};
      assert f.summary.links - {} == f.summary.links;
      WithoutNone(f.summary.entries, {});
      f
    else
      var f1 := Unhighlight(f, valid[0]);
      var r := UnhighlightAll(f1, valid[1..]);
      UnhighlightAllStep(f, f1, r, valid);
      r
  }

  lemma UnhighlightAllStep(f: Form, f1: Form, r: Form, valid: seq<Field>)
    requires |valid| > 0 && f1 == Unhighlight(f, valid[0])
    requires Unhighlighted(f1, r, valid[1..])
    ensures Unhighlighted(f, r, valid)
  {
    FieldIdsSplit(valid);
    var x := valid[0].id;
    assert f.summary.links - {x} - FieldIds(valid[1..]) == f.summary.links - FieldIds(valid);
    if Valid(f.summary) {
      DropIsWithout(f.summary, x);
      WithoutTwice(f.summary.entries, {x}, FieldIds(valid[1..]));
    }
  }

  /** One line the summary announces: a field and the text of its entry. */
  datatype Notice = Notice(field: FieldId, text: string)

  /** Line 234 for every error: the field's label followed by its message. */
  function Announce(labels: LabelIndex, errors: seq<FieldError>): (r: seq<Notice>)
    ensures |r| == |errors|
    ensures forall k :: 0 <= k < |errors| ==>
      r[k] == Notice(errors[k].field.id, SummaryMessage(labels, errors[k].field.id, errors[k].message))
  {
    seq(|errors|, k requires 0 <= k < |errors| =>
      Notice(errors[k].field.id, SummaryMessage(labels, errors[k].field.id, errors[k].message)))
  }

  /** The fields a list of notices names. */
  function Ids(notices: seq<Notice>): set<FieldId> {
    set k | 0 <= k < |notices| :: notices[k].field
  }

  /** Notice `k` is the last one in the list for its field. */
  ghost predicate LastFor(notices: seq<Notice>, k: nat)
    requires k < |notices|
  {
    forall k' :: k < k' < |notices| ==> notices[k'].field != notices[k].field
  }

  /** What recording `notices` into `s` promises of the result `r`: the same
      header; links for exactly the old fields and the announced ones; the
      old entries kept in place, new ones only for announced fields that had
      none, and shown; old entries keep their shown flags and old links
      their targets; and, from a valid summary, a valid one in which each
      announced field says the last text announced for it, while other
      fields keep their messages. */
  ghost predicate Recorded(s: Summary, r: Summary, notices: seq<Notice>) {
    && !r.blank && r.header == s.header
    && r.links.Keys == s.links.Keys + Ids(notices)
    && (forall g :: g in s.links ==> r.links[g] == s.links[g])
    && |r.entries| >= |s.entries| && SameNodes(s.entries, r.entries[..|s.entries|])
    && (forall i :: 0 <= i < |s.entries| ==> r.entries[i].shown == s.entries[i].shown)
    && (forall i :: |s.entries| <= i < |r.entries| ==> r.entries[i].field in Ids(notices) - s.links.Keys)
    && (forall i :: |s.entries| <= i < |r.entries| ==> r.entries[i].shown)
    && (Valid(s) ==> Valid(r))
    && (Valid(s) ==> forall k :: 0 <= k < |notices| && LastFor(notices, k) ==>
          Says(r, notices[k].field, notices[k].text))
    && (Valid(s) ==> forall g, m :: g !in Ids(notices) && Says(s, g, m) ==> Says(r, g, m))
  }

  /** The loop of `showErrors` over the error list: each notice goes into a
      new entry at the end of the list, or replaces the message of the
      field's existing entry. */
  function RecordAll(s: Summary, notices: seq<Notice>): (r: Summary)
    requires !s.blank
    ensures Recorded(s, r, notices)
    decreases |notices|
  {
    if |notices| == 0 then
      assert s.entries[..|s.entries|] == s.entries;
      s
    else
      var s1 := Record(s, notices[0].field, notices[0].text);
      var r := RecordAll(s1, notices[1..]);
      RecordAllStep(s, s1, r, notices);
      r
  }

  lemma IdsSplit(notices: seq<Notice>)
    requires |notices| > 0
    ensures Ids(notices) == {notices[0].field} + Ids(notices[1..])
  {
    forall x | x in Ids(notices)
      ensures x in {notices[0].field} + Ids(notices[1..])
    {
      var k :| 0 <= k < |notices| && notices[k].field == x;
      if k > 0 {
        assert notices[1..][k - 1] == notices[k];
      }
    }
    forall x | x in Ids(notices[1..])
      ensures x in Ids(notices)
    {
      var k :| 0 <= k < |notices[1..]| && notices[1..][k].field == x;
      assert notices[k + 1] == notices[1..][k];
    }
  }

  /** One step of the loop: the first notice recorded, the rest by induction. */
  lemma RecordAllStep(s: Summary, s1: Summary, r: Summary, notices: seq<Notice>)
    requires !s.blank && |notices| > 0
    requires s1 == Record(s, notices[0].field, notices[0].text)
    requires Recorded(s1, r, notices[1..])
    ensures Recorded(s, r, notices)
  {
    IdsSplit(notices);
    RecordAllNodes(s, s1, r, notices);
    if Valid(s) {
      RecordAllSays(s, s1, r, notices);
    }
  }

  lemma RecordAllNodes(s: Summary, s1: Summary, r: Summary, notices: seq<Notice>)
    requires !s.blank && |notices| > 0
    requires s1 == Record(s, notices[0].field, notices[0].text)
    requires Recorded(s1, r, notices[1..])
    requires Ids(notices) == {notices[0].field} + Ids(notices[1..])
    ensures |r.entries| >= |s.entries| && SameNodes(s.entries, r.entries[..|s.entries|])
    ensures forall i :: 0 <= i < |s.entries| ==> r.entries[i].shown == s.entries[i].shown
    ensures forall i :: |s.entries| <= i < |r.entries| ==> r.entries[i].field in Ids(notices) - s.links.Keys
    ensures forall i :: |s.entries| <= i < |r.entries| ==> r.entries[i].shown
  {
    var id := notices[0].field;
    assert SameNodes(s.entries, s1.entries[..|s.entries|]);
    forall i | 0 <= i < |s.entries|
      ensures r.entries[i].key == s.entries[i].key && r.entries[i].field == s.entries[i].field
      ensures r.entries[i].shown == s.entries[i].shown
    {
      assert r.entries[..|s1.entries|][i] == r.entries[i];
      assert s1.entries[..|s.entries|][i] == s1.entries[i];
      assert s1.entries[i].shown == s.entries[i].shown;
    }
    forall i | |s.entries| <= i < |r.entries|
      ensures r.entries[i].field in Ids(notices) - s.links.Keys
      ensures r.entries[i].shown
    {
      if i < |s1.entries| {
        assert r.entries[..|s1.entries|][i] == r.entries[i];
        assert id !in s.links && s1.entries[i].field == id;
        assert s1.entries[i].shown;
      }
    }
  }

  lemma RecordAllSays(s: Summary, s1: Summary, r: Summary, notices: seq<Notice>)
    requires !s.blank && |notices| > 0 && Valid(s)
    requires s1 == Record(s, notices[0].field, notices[0].text)
    requires Recorded(s1, r, notices[1..])
    requires Ids(notices) == {notices[0].field} + Ids(notices[1..])
    ensures forall k :: 0 <= k < |notices| && LastFor(notices, k) ==>
      Says(r, notices[k].field, notices[k].text)
    ensures forall g, m :: g !in Ids(notices) && Says(s, g, m) ==> Says(r, g, m)
  {
    var n := notices[0];
    var rest := notices[1..];
    forall k | 0 <= k < |notices| && LastFor(notices, k)
      ensures Says(r, notices[k].field, notices[k].text)
    {
      if k > 0 {
        assert rest[k - 1] == notices[k];
        forall k' | k - 1 < k' < |rest|
          ensures rest[k'].field != rest[k - 1].field
        {
          assert rest[k'] == notices[k' + 1];
        }
        assert LastFor(rest, k - 1);
      }
    }
  }

  /** The groups `showErrors` syncs: exactly the groups of the errors'
      fields, at most one push per error. */
  function GroupsOf(errors: seq<FieldError>): (r: seq<GroupId>)
    ensures |r| <= |errors|
    ensures forall g :: g in r <==> exists k :: 0 <= k < |errors| && errors[k].field.group == Some(g)
  {
    if |errors| == 0 then []
    else
      var rest := GroupsOf(errors[1..]);
      assert forall k :: 1 <= k < |errors| ==> errors[1..][k - 1] == errors[k];
      match errors[0].field.group
      case Some(g) => [g] + rest
      case None => rest
  }

  /** Some label of a pushed group reaches the entry with key `k`. */
  ghost predicate ReachedFrom(inline: map<GroupId, seq<ErrorLabel>>, groups: seq<GroupId>,
                              links: map<FieldId, nat>, k: nat) {
    exists g :: g in groups && g in inline && Touched(inline[g], links, k)
  }

  /** The entry with key `k` is reached from the pushed group `g` and from
      no other pushed group. */
  ghost predicate OnlyFrom(inline: map<GroupId, seq<ErrorLabel>>, groups: seq<GroupId>,
                           links: map<FieldId, nat>, g: GroupId, k: nat) {
    && g in groups && g in inline && Touched(inline[g], links, k)
    && forall h :: h in groups && h in inline && h != g ==> !Touched(inline[h], links, k)
  }

  /** What syncing the pushed `groups` promises: markers, links and
      messages stay; entries change only in visibility; every group synced
      at least once ends with its marker set exactly on the visible labels
      after the first, however often it was pushed; other groups keep their
      labels. An entry no pushed group reaches keeps its flag, and an entry
      only one pushed group reaches ends as a sync of that group leaves it:
      hidden exactly when a visible label after the first reaches it. */
  ghost predicate Synced(f: Form, r: Form, groups: seq<GroupId>) {
    && r.markers == f.markers && r.inline.Keys == f.inline.Keys
    && r.summary == f.summary.(entries := r.summary.entries)
    && Reshown(f.summary.entries, r.summary.entries)
    && (Valid(f.summary) ==> Valid(r.summary))
    && (forall g :: g in f.inline ==> SameShape(r.inline[g], f.inline[g]))
    && (forall g :: g in f.inline && g !in groups ==> r.inline[g] == f.inline[g])
    && (forall g, j :: g in f.inline && g in groups && 0 <= j < |f.inline[g]| ==>
          r.inline[g][j].suppressed == Later(f.inline[g], j, false))
    && (forall i :: 0 <= i < |f.summary.entries| && !ReachedFrom(f.inline, groups, f.summary.links, f.summary.entries[i].key) ==>
          r.summary.entries[i].shown == f.summary.entries[i].shown)
    && (forall g, i :: 0 <= i < |f.summary.entries| && OnlyFrom(f.inline, groups, f.summary.links, g, f.summary.entries[i].key) ==>
          r.summary.entries[i].shown == !Hidden(f.inline[g], f.summary.links, f.summary.entries[i].key, false))
  }

  /** One sync of a pushed group; a group without labels is left alone. */
  function SyncOne(f: Form, g: GroupId): (r: Form)
    ensures Synced(f, r, [g])
  {
    if g !in f.inline then f
    else
      var p := Sync(f.inline[g], f.summary);
      var r := f.(summary := p.1, inline := f.inline[g := p.0]);
      SyncOneFacts(f, g, r);
      r
  }

  lemma SyncOneFacts(f: Form, g: GroupId, r: Form)
    requires g in f.inline
    requires r == f.(summary := Sync(f.inline[g], f.summary).1, inline := f.inline[g := Sync(f.inline[g], f.summary).0])
    ensures forall i :: 0 <= i < |f.summary.entries| && !ReachedFrom(f.inline, [g], f.summary.links, f.summary.entries[i].key) ==>
      r.summary.entries[i].shown == f.summary.entries[i].shown
    ensures forall h, i :: 0 <= i < |f.summary.entries| && OnlyFrom(f.inline, [g], f.summary.links, h, f.summary.entries[i].key) ==>
      r.summary.entries[i].shown == !Hidden(f.inline[h], f.summary.links, f.summary.entries[i].key, false)
  {
    var links := f.summary.links;
    forall i | 0 <= i < |f.summary.entries| && !ReachedFrom(f.inline, [g], links, f.summary.entries[i].key)
      ensures r.summary.entries[i].shown == f.summary.entries[i].shown
    {
      var k := f.summary.entries[i].key;
      assert !Touched(f.inline[g], links, k) by {
        assert g in [g];
      }
      HiddenTouched(f.inline[g], links, k);
    }
  }

  /** The final loop of `showErrors`: each pushed group synced in turn. */
  function SyncGroups(f: Form, groups: seq<GroupId>): (r: Form)
    ensures Synced(f, r, groups)
    decreases |groups|
  {
    if |groups| == 0 then f
    else
      var f1 := SyncOne(f, groups[0]);
      var r := SyncGroups(f1, groups[1..]);
      SyncGroupsStep(f, f1, r, groups);
      r
  }

  lemma SyncGroupsStep(f: Form, f1: Form, r: Form, groups: seq<GroupId>)
    requires |groups| > 0
    requires Synced(f, f1, [groups[0]]) && Synced(f1, r, groups[1..])
    ensures Synced(f, r, groups)
  {
    forall g | g in f.inline
      ensures SameShape(r.inline[g], f.inline[g])
    {
      assert SameShape(r.inline[g], f1.inline[g]);
    }
    forall g, j | g in f.inline && g in groups && 0 <= j < |f.inline[g]|
      ensures r.inline[g][j].suppressed == Later(f.inline[g], j, false)
    {
      SameShapeReadings(f1.inline[g], f.inline[g], f.summary.links);
    }
    assert Reshown(f.summary.entries, r.summary.entries) by {
      forall i | 0 <= i < |f.summary.entries|
        ensures r.summary.entries[i] == f.summary.entries[i].(shown := r.summary.entries[i].shown)
      {
        assert f1.summary.entries[i] == f.summary.entries[i].(shown := f1.summary.entries[i].shown);
      }
    }
    SyncGroupsUnreached(f, f1, r, groups);
    SyncGroupsOnly(f, f1, r, groups);
  }

  /** Reading the reach of pushed groups gives the same answer before and
      after a sync: syncs keep every label's link. */
  lemma ReachAgrees(f: Form, f1: Form, groups: seq<GroupId>)
    requires f1.inline.Keys == f.inline.Keys
    requires forall g :: g in f.inline ==> SameShape(f1.inline[g], f.inline[g])
    ensures forall g, k: nat :: g in f.inline ==>
      Touched(f1.inline[g], f.summary.links, k) == Touched(f.inline[g], f.summary.links, k) &&
      Hidden(f1.inline[g], f.summary.links, k, false) == Hidden(f.inline[g], f.summary.links, k, false)
    ensures forall k: nat :: ReachedFrom(f1.inline, groups, f.summary.links, k) == ReachedFrom(f.inline, groups, f.summary.links, k)
    ensures forall g, k: nat :: OnlyFrom(f1.inline, groups, f.summary.links, g, k) == OnlyFrom(f.inline, groups, f.summary.links, g, k)
  {
    forall g | g in f.inline {
      SameShapeReadings(f1.inline[g], f.inline[g], f.summary.links);
    }
  }

  lemma SyncGroupsUnreached(f: Form, f1: Form, r: Form, groups: seq<GroupId>)
    requires |groups| > 0
    requires Synced(f, f1, [groups[0]]) && Synced(f1, r, groups[1..])
    ensures forall i :: 0 <= i < |f.summary.entries| && !ReachedFrom(f.inline, groups, f.summary.links, f.summary.entries[i].key) ==>
      r.summary.entries[i].shown == f.summary.entries[i].shown
  {
    var links := f.summary.links;
    ReachAgrees(f, f1, groups[1..]);
    forall i | 0 <= i < |f.summary.entries| && !ReachedFrom(f.inline, groups, links, f.summary.entries[i].key)
      ensures r.summary.entries[i].shown == f.summary.entries[i].shown
    {
      var k := f.summary.entries[i].key;
      assert f1.summary.entries[i].key == k;
      assert !ReachedFrom(f.inline, [groups[0]], links, k);
      assert !ReachedFrom(f.inline, groups[1..], links, k);
    }
  }

  lemma SyncGroupsOnly(f: Form, f1: Form, r: Form, groups: seq<GroupId>)
    requires |groups| > 0
    requires Synced(f, f1, [groups[0]]) && Synced(f1, r, groups[1..])
    ensures forall g, i :: 0 <= i < |f.summary.entries| && OnlyFrom(f.inline, groups, f.summary.links, g, f.summary.entries[i].key) ==>
      r.summary.entries[i].shown == !Hidden(f.inline[g], f.summary.links, f.summary.entries[i].key, false)
  {
    forall g, i | 0 <= i < |f.summary.entries| && OnlyFrom(f.inline, groups, f.summary.links, g, f.summary.entries[i].key)
      ensures r.summary.entries[i].shown == !Hidden(f.inline[g], f.summary.links, f.summary.entries[i].key, false)
    {
      SyncGroupsOnlyAt(f, f1, r, groups, g, i);
    }
  }

  lemma SyncGroupsOnlyAt(f: Form, f1: Form, r: Form, groups: seq<GroupId>, g: GroupId, i: nat)
    requires |groups| > 0
    requires Synced(f, f1, [groups[0]]) && Synced(f1, r, groups[1..])
    requires i < |f.summary.entries| && OnlyFrom(f.inline, groups, f.summary.links, g, f.summary.entries[i].key)
    ensures r.summary.entries[i].shown == !Hidden(f.inline[g], f.summary.links, f.summary.entries[i].key, false)
  {
    var links := f.summary.links;
    var rest := groups[1..];
    var k := f.summary.entries[i].key;
    ReachAgrees(f, f1, rest);
    assert f1.summary.entries[i].key == k;
    if g in rest {
      assert OnlyFrom(f.inline, rest, links, g, k);
    } else {
      assert g == groups[0];
      assert OnlyFrom(f.inline, [g], links, g, k);
      assert !ReachedFrom(f.inline, rest, links, k);
    }
  }

  /** The ids of the fields in an error list. */
  function ErrorIds(errors: seq<FieldError>): set<FieldId> {
    set k | 0 <= k < |errors| :: errors[k].field.id
  }

  /** Error `k` is the last one in the list for its field. */
  ghost predicate LastError(errors: seq<FieldError>, k: nat)
    requires k < |errors|
  {
    forall k' :: k < k' < |errors| ==> errors[k'].field.id != errors[k].field.id
  }

  /** Announcing keeps the fields and their order. */
  lemma AnnounceFields(labels: LabelIndex, errors: seq<FieldError>)
    ensures Ids(Announce(labels, errors)) == ErrorIds(errors)
    ensures forall k :: 0 <= k < |errors| && LastError(errors, k) ==> LastFor(Announce(labels, errors), k)
  {
    var ns := Announce(labels, errors);
    forall x | x in ErrorIds(errors)
      ensures x in Ids(ns)
    {
      var k :| 0 <= k < |errors| && errors[k].field.id == x;
      assert ns[k].field == x;
    }
  }

  /** Each error that is the last for its field, and whose field is not in
      `skip`, has its field say "label: message". */
  ghost predicate SaysAll(s: Summary, labels: LabelIndex, errors: seq<FieldError>, skip: set<FieldId>) {
    forall k :: 0 <= k < |errors| && LastError(errors, k) && errors[k].field.id !in skip ==>
      Says(s, errors[k].field.id, SummaryMessage(labels, errors[k].field.id, errors[k].message))
  }

  /** `showErrors`, run by the engine after each validation. With errors,
      the summary is initialised with the container's `data-header` (no
      explicit header is passed) and every error is recorded as its field's
      label followed by its message. Then the engine's `defaultShowErrors`
      runs the hooks: `highlight` on the field of every error, and
      `unhighlight` on every field in `valid`, the elements it found valid.
      Last, every group holding an error is synced. The inline labels of `f`
      are taken as the engine's own rendering of the error labels leaves
      them. */
  function ShowErrors(f: Form, labels: LabelIndex, dataHeader: string, errors: seq<FieldError>, valid: seq<Field>): (r: Form)
    ensures r.markers.items == (f.markers.items + ErrorIds(errors)) - FieldIds(valid)
    ensures r.markers.groups == f.markers.groups + ErrorGroups(errors)
    ensures r.inline.Keys == f.inline.Keys
    ensures errors == [] ==> r.summary.blank == f.summary.blank && r.summary.header == f.summary.header
    ensures errors != [] ==> !r.summary.blank
    ensures errors != [] && (f.summary.blank || f.summary.header.Some?) ==> r.summary.header == Some(dataHeader)
    ensures r.summary.links.Keys == (f.summary.links.Keys + ErrorIds(errors)) - FieldIds(valid)
    ensures Valid(f.summary) ==> Valid(r.summary)
    ensures Valid(f.summary) ==> forall k :: 0 <= k < |errors| && LastError(errors, k) && errors[k].field.id !in FieldIds(valid) ==>
      Says(r.summary, errors[k].field.id, SummaryMessage(labels, errors[k].field.id, errors[k].message))
    ensures Valid(f.summary) ==> forall i :: 0 <= i < |r.summary.entries| && r.summary.entries[i].field in ErrorIds(errors) && !ReachedFrom(f.inline, GroupsOf(errors), r.summary.links, r.summary.entries[i].key) ==>
      r.summary.entries[i].shown
    ensures forall g, i :: 0 <= i < |r.summary.entries| && OnlyFrom(f.inline, GroupsOf(errors), r.summary.links, g, r.summary.entries[i].key) ==>
      r.summary.entries[i].shown == !Hidden(f.inline[g], r.summary.links, r.summary.entries[i].key, false)
    ensures forall g :: g in f.inline ==> |r.inline[g]| == |f.inline[g]|
    ensures forall g, j :: g in f.inline && g in GroupsOf(errors) && 0 <= j < |f.inline[g]| ==>
      Displayed(r.inline[g][j]) == (f.inline[g][j].visible && !VisibleBefore(f.inline[g], j))
    ensures forall g :: g in f.inline && g !in GroupsOf(errors) ==> r.inline[g] == f.inline[g]
    ensures forall g :: g in f.summary.links && g !in FieldIds(valid) ==> r.summary.links[g] == f.summary.links[g]
    ensures Valid(f.summary) ==> forall g, m :: g !in ErrorIds(errors) && g !in FieldIds(valid) && Says(f.summary, g, m) ==>
      Says(r.summary, g, m)
    ensures Valid(f.summary) ==> forall g :: g in f.summary.links && g !in ErrorIds(errors) && g !in FieldIds(valid) && !ReachedFrom(f.inline, GroupsOf(errors), r.summary.links, f.summary.links[g]) ==>
      ShownFor(r.summary, g) == ShownFor(f.summary, g)
  {
    var s1 := if |errors| == 0 then f.summary
      else RecordAll(Initialise(f.summary, HeaderText(None, dataHeader)), Announce(labels, errors));
    var f2 := HighlightAll(f.(summary := s1), errors);
    var f3 := UnhighlightAll(f2, valid);
    var r := SyncGroups(f3, GroupsOf(errors));
    RecordStaged(f, labels, dataHeader, errors, s1);
    ShowErrorsShape(f, labels, dataHeader, errors, valid, s1, f2, f3, r);
    ShowErrorsLabels(f, labels, dataHeader, errors, valid, s1, f2, f3, r);
    ShowErrorsMessages(f, labels, dataHeader, errors, valid, s1, f2, f3, r);
    ShowErrorsKeepsMessages(f, labels, dataHeader, errors, valid, s1, f2, f3, r);
    ShowErrorsShown(f, labels, dataHeader, errors, valid, s1, f2, f3, r);
    r
  }

  /** What `ShowErrors` promises of the classes, the header and the links. */
  lemma {:induction false} ShowErrorsShape(f: Form, labels: LabelIndex, dataHeader: string, errors: seq<FieldError>, valid: seq<Field>,
                        s1: Summary, f2: Form, f3: Form, r: Form)
    requires Staged(f, labels, dataHeader, errors, s1)
    requires Highlighted(f.(summary := s1), f2, errors) && Unhighlighted(f2, f3, valid) && Synced(f3, r, GroupsOf(errors))
    ensures r.markers.items == (f.markers.items + ErrorIds(errors)) - FieldIds(valid)
    ensures r.markers.groups == f.markers.groups + ErrorGroups(errors)
    ensures errors == [] ==> r.summary.blank == f.summary.blank && r.summary.header == f.summary.header
    ensures errors != [] ==> !r.summary.blank
    ensures errors != [] && (f.summary.blank || f.summary.header.Some?) ==> r.summary.header == Some(dataHeader)
    ensures r.summary.links.Keys == (f.summary.links.Keys + ErrorIds(errors)) - FieldIds(valid)
    ensures forall g :: g in f.summary.links && g !in FieldIds(valid) ==> r.summary.links[g] == f.summary.links[g]
  {
  }

  /** What `ShowErrors` promises of the inline labels and of the entries a
      single pushed group reaches. */
  lemma {:induction false} ShowErrorsLabels(f: Form, labels: LabelIndex, dataHeader: string, errors: seq<FieldError>, valid: seq<Field>,
                         s1: Summary, f2: Form, f3: Form, r: Form)
    requires Staged(f, labels, dataHeader, errors, s1)
    requires Highlighted(f.(summary := s1), f2, errors) && Unhighlighted(f2, f3, valid) && Synced(f3, r, GroupsOf(errors))
    ensures r.inline.Keys == f.inline.Keys
    ensures forall g, i :: 0 <= i < |r.summary.entries| && OnlyFrom(f.inline, GroupsOf(errors), r.summary.links, g, r.summary.entries[i].key) ==>
      r.summary.entries[i].shown == !Hidden(f.inline[g], r.summary.links, r.summary.entries[i].key, false)
    ensures forall g :: g in f.inline ==> |r.inline[g]| == |f.inline[g]|
    ensures forall g, j :: g in f.inline && g in GroupsOf(errors) && 0 <= j < |f.inline[g]| ==>
      Displayed(r.inline[g][j]) == (f.inline[g][j].visible && !VisibleBefore(f.inline[g], j))
    ensures forall g :: g in f.inline && g !in GroupsOf(errors) ==> r.inline[g] == f.inline[g]
  {
    SyncedHides(f3, r, GroupsOf(errors));
    SyncedDisplays(f3, r, GroupsOf(errors));
  }

  /** What `ShowErrors` promises of the messages of the errors. */
  lemma {:induction false} ShowErrorsMessages(f: Form, labels: LabelIndex, dataHeader: string, errors: seq<FieldError>, valid: seq<Field>,
                           s1: Summary, f2: Form, f3: Form, r: Form)
    requires Staged(f, labels, dataHeader, errors, s1)
    requires Highlighted(f.(summary := s1), f2, errors) && Unhighlighted(f2, f3, valid) && Synced(f3, r, GroupsOf(errors))
    ensures Valid(f.summary) ==> Valid(r.summary)
    ensures Valid(f.summary) ==> forall k :: 0 <= k < |errors| && LastError(errors, k) && errors[k].field.id !in FieldIds(valid) ==>
      Says(r.summary, errors[k].field.id, SummaryMessage(labels, errors[k].field.id, errors[k].message))
  {
    PassSays(f.(summary := s1), f2, f3, r, labels, errors, valid);
  }

  /** What `ShowErrors` promises of the messages of the other fields. */
  lemma {:induction false} ShowErrorsKeepsMessages(f: Form, labels: LabelIndex, dataHeader: string, errors: seq<FieldError>, valid: seq<Field>,
                               s1: Summary, f2: Form, f3: Form, r: Form)
    requires Staged(f, labels, dataHeader, errors, s1)
    requires Highlighted(f.(summary := s1), f2, errors) && Unhighlighted(f2, f3, valid) && Synced(f3, r, GroupsOf(errors))
    ensures Valid(f.summary) ==> forall g, m :: g !in ErrorIds(errors) && g !in FieldIds(valid) && Says(f.summary, g, m) ==>
      Says(r.summary, g, m)
  {
    PassKeepsSays(f.(summary := s1), f2, f3, r, errors, valid);
  }

  /** What `ShowErrors` promises of the shown flags of a valid summary. */
  lemma {:induction false} ShowErrorsShown(f: Form, labels: LabelIndex, dataHeader: string, errors: seq<FieldError>, valid: seq<Field>,
                        s1: Summary, f2: Form, f3: Form, r: Form)
    requires Staged(f, labels, dataHeader, errors, s1)
    requires Highlighted(f.(summary := s1), f2, errors) && Unhighlighted(f2, f3, valid) && Synced(f3, r, GroupsOf(errors))
    ensures Valid(f.summary) ==> forall i :: 0 <= i < |r.summary.entries| && r.summary.entries[i].field in ErrorIds(errors) && !ReachedFrom(f.inline, GroupsOf(errors), r.summary.links, r.summary.entries[i].key) ==>
      r.summary.entries[i].shown
    ensures Valid(f.summary) ==> forall g :: g in f.summary.links && g !in ErrorIds(errors) && g !in FieldIds(valid) && !ReachedFrom(f.inline, GroupsOf(errors), r.summary.links, f.summary.links[g]) ==>
      ShownFor(r.summary, g) == ShownFor(f.summary, g)
  {
    PassShown(f.(summary := s1), f2, f3, r, errors, valid);
    PassKeepsShown(f, f.(summary := s1), f2, f3, r, errors, valid);
  }

  /** What the recording half of `showErrors` leaves in `s1`, as
      `RecordStage` and `RecordKeeps` establish it. */
  ghost predicate Staged(f: Form, labels: LabelIndex, dataHeader: string, errors: seq<FieldError>, s1: Summary) {
    && (errors == [] ==> s1 == f.summary)
    && (errors != [] ==> !s1.blank)
    && (errors != [] && (f.summary.blank || f.summary.header.Some?) ==> s1.header == Some(dataHeader))
    && s1.links.Keys == f.summary.links.Keys + ErrorIds(errors)
    && (Valid(f.summary) ==> Valid(s1) && SaysAll(s1, labels, errors, {}))
    && (forall g :: g in f.summary.links ==> g in s1.links && s1.links[g] == f.summary.links[g])
    && (!f.summary.blank ==> |s1.entries| >= |f.summary.entries|)
    && (!f.summary.blank ==> forall i :: 0 <= i < |f.summary.entries| ==>
          s1.entries[i].key == f.summary.entries[i].key && s1.entries[i].shown == f.summary.entries[i].shown)
    && (Valid(f.summary) ==> forall g, m :: g !in ErrorIds(errors) && Says(f.summary, g, m) ==> Says(s1, g, m))
  }

  /** The recording half of `showErrors` leaves its summary `Staged`. */
  lemma RecordStaged(f: Form, labels: LabelIndex, dataHeader: string, errors: seq<FieldError>, s1: Summary)
    requires s1 == if |errors| == 0 then f.summary
      else RecordAll(Initialise(f.summary, HeaderText(None, dataHeader)), Announce(labels, errors))
    ensures Staged(f, labels, dataHeader, errors, s1)
  {
    RecordStage(f, labels, dataHeader, errors, s1);
    RecordKeeps(f, labels, dataHeader, errors, s1);
  }

  /** The recording half of `showErrors` (lines 224-251). */
  lemma RecordStage(f: Form, labels: LabelIndex, dataHeader: string, errors: seq<FieldError>, s1: Summary)
    requires s1 == if |errors| == 0 then f.summary
      else RecordAll(Initialise(f.summary, HeaderText(None, dataHeader)), Announce(labels, errors))
    ensures errors == [] ==> s1 == f.summary
    ensures errors != [] ==> !s1.blank
    ensures errors != [] && (f.summary.blank || f.summary.header.Some?) ==> s1.header == Some(dataHeader)
    ensures s1.links.Keys == f.summary.links.Keys + ErrorIds(errors)
    ensures Valid(f.summary) ==> Valid(s1) && SaysAll(s1, labels, errors, {})
  {
    if |errors| == 0 {
      assert ErrorIds(errors) == {};
    } else {
      AnnounceFields(labels, errors);
    }
  }

  /** What the recording loop keeps of the fields it does not announce:
      every old link keeps its target, the old entries keep their places,
      keys and shown flags, and every other field keeps its message. */
  lemma RecordKeeps(f: Form, labels: LabelIndex, dataHeader: string, errors: seq<FieldError>, s1: Summary)
    requires s1 == if |errors| == 0 then f.summary
      else RecordAll(Initialise(f.summary, HeaderText(None, dataHeader)), Announce(labels, errors))
    ensures forall g :: g in f.summary.links ==> g in s1.links && s1.links[g] == f.summary.links[g]
    ensures !f.summary.blank ==> |s1.entries| >= |f.summary.entries|
    ensures !f.summary.blank ==> forall i :: 0 <= i < |f.summary.entries| ==>
      s1.entries[i].key == f.summary.entries[i].key && s1.entries[i].shown == f.summary.entries[i].shown
    ensures Valid(f.summary) ==> forall g, m :: g !in ErrorIds(errors) && Says(f.summary, g, m) ==> Says(s1, g, m)
  {
    if |errors| > 0 {
      AnnounceFields(labels, errors);
      var s0 := Initialise(f.summary, HeaderText(None, dataHeader));
      if !f.summary.blank {
        forall i | 0 <= i < |f.summary.entries|
          ensures s1.entries[i].key == f.summary.entries[i].key
        {
          assert s1.entries[..|s0.entries|][i] == s1.entries[i];
        }
      }
      if Valid(f.summary) {
        forall g, m | Says(f.summary, g, m)
          ensures Says(s0, g, m)
        {
          assert g in f.summary.links;
        }
      }
    }
  }

  /** Highlighting, unhighlighting and syncing keep the message of every
      field that neither has an error nor was found valid. */
  lemma PassKeepsSays(f1: Form, f2: Form, f3: Form, r: Form, errors: seq<FieldError>, valid: seq<Field>)
    requires Highlighted(f1, f2, errors) && Unhighlighted(f2, f3, valid) && Synced(f3, r, GroupsOf(errors))
    ensures Valid(f1.summary) ==> forall g, m :: g !in FieldIds(valid) && Says(f1.summary, g, m) ==> Says(r.summary, g, m)
  {
    if Valid(f1.summary) {
      assert Reshown(f1.summary.entries, f2.summary.entries);
      SaysReshown(f1.summary, f2.summary.entries);
      WithoutSays(f2.summary, FieldIds(valid), f3.summary);
      SaysReshown(f3.summary, r.summary.entries);
    }
  }

  /** In a valid summary, a field shows exactly when the entry its link
      leads to is shown. */
  lemma ShownForAt(s: Summary, g: FieldId, i: nat)
    requires Valid(s) && g in s.links && i < |s.entries| && s.entries[i].key == s.links[g]
    ensures ShownFor(s, g) == s.entries[i].shown
  {
    var w := LinkedIndex(s, g);
  }

  /** The whole pass keeps the shown flag of a field that neither has an
      error nor was found valid, unless a pushed group reaches its entry. */
  lemma PassKeepsShown(f: Form, f1: Form, f2: Form, f3: Form, r: Form, errors: seq<FieldError>, valid: seq<Field>)
    requires f1 == f.(summary := f1.summary)
    requires forall g :: g in f.summary.links ==> g in f1.summary.links && f1.summary.links[g] == f.summary.links[g]
    requires !f.summary.blank ==> |f1.summary.entries| >= |f.summary.entries|
    requires !f.summary.blank ==> forall i :: 0 <= i < |f.summary.entries| ==>
      f1.summary.entries[i].key == f.summary.entries[i].key && f1.summary.entries[i].shown == f.summary.entries[i].shown
    requires Valid(f.summary) ==> Valid(f1.summary)
    requires Highlighted(f1, f2, errors) && Unhighlighted(f2, f3, valid) && Synced(f3, r, GroupsOf(errors))
    ensures Valid(f.summary) ==> forall g :: g in f.summary.links && g !in ErrorIds(errors) && g !in FieldIds(valid) && !ReachedFrom(f.inline, GroupsOf(errors), r.summary.links, f.summary.links[g]) ==>
      ShownFor(r.summary, g) == ShownFor(f.summary, g)
  {
    if Valid(f.summary) {
      forall g | g in f.summary.links && g !in ErrorIds(errors) && g !in FieldIds(valid) && !ReachedFrom(f.inline, GroupsOf(errors), r.summary.links, f.summary.links[g])
        ensures ShownFor(r.summary, g) == ShownFor(f.summary, g)
      {
        KeepsShownOne(f, f1, f2, f3, r, errors, valid, g);
      }
    }
  }

  lemma KeepsShownOne(f: Form, f1: Form, f2: Form, f3: Form, r: Form, errors: seq<FieldError>, valid: seq<Field>, g: FieldId)
    requires f1 == f.(summary := f1.summary)
    requires forall g :: g in f.summary.links ==> g in f1.summary.links && f1.summary.links[g] == f.summary.links[g]
    requires !f.summary.blank ==> |f1.summary.entries| >= |f.summary.entries|
    requires !f.summary.blank ==> forall i :: 0 <= i < |f.summary.entries| ==>
      f1.summary.entries[i].key == f.summary.entries[i].key && f1.summary.entries[i].shown == f.summary.entries[i].shown
    requires Valid(f.summary) && Valid(f1.summary)
    requires Highlighted(f1, f2, errors) && Unhighlighted(f2, f3, valid) && Synced(f3, r, GroupsOf(errors))
    requires g in f.summary.links && g !in ErrorIds(errors) && g !in FieldIds(valid)
    requires !ReachedFrom(f.inline, GroupsOf(errors), r.summary.links, f.summary.links[g])
    ensures ShownFor(r.summary, g) == ShownFor(f.summary, g)
  {
    var k := f.summary.links[g];
    var i := LinkedIndex(f.summary, g);
    var s1 := f1.summary;
    assert s1.entries[i].key == k && s1.entries[i].shown == f.summary.entries[i].shown;
    assert !LinkedFrom(s1.links, ErrorIds(errors), k);
    var e := f2.summary.entries[i];
    assert e.key == k && e.shown == f.summary.entries[i].shown;
    var x := e.field;
    assert x == g by {
      assert s1.entries[i].field in s1.links && s1.links[s1.entries[i].field] == k;
      if x != g {
        LinksInjective(s1, x, g);
      }
    }
    WithoutMembers(f2.summary.entries, FieldIds(valid));
    assert e in f3.summary.entries;
    var j :| 0 <= j < |f3.summary.entries| && f3.summary.entries[j] == e;
    assert r.summary.entries[j] == e.(shown := r.summary.entries[j].shown);
    ShownForAt(f.summary, g, i);
    ShownForAt(r.summary, g, j);
  }

  /** Highlighting, unhighlighting and syncing keep what each error's field
      says, unless the field was found valid. */
  lemma PassSays(f1: Form, f2: Form, f3: Form, r: Form, labels: LabelIndex, errors: seq<FieldError>, valid: seq<Field>)
    requires Highlighted(f1, f2, errors) && Unhighlighted(f2, f3, valid) && Synced(f3, r, GroupsOf(errors))
    ensures Valid(f1.summary) && SaysAll(f1.summary, labels, errors, {}) ==> SaysAll(r.summary, labels, errors, FieldIds(valid))
  {
    if Valid(f1.summary) && SaysAll(f1.summary, labels, errors, {}) {
      assert Reshown(f1.summary.entries, f2.summary.entries);
      SaysReshown(f1.summary, f2.summary.entries);
      assert SaysAll(f2.summary, labels, errors, {});
      WithoutSays(f2.summary, FieldIds(valid), f3.summary);
      assert SaysAll(f3.summary, labels, errors, FieldIds(valid));
      SaysReshown(f3.summary, r.summary.entries);
    }
  }

  /** After the pass, every error field's entry that no pushed group reaches
      is shown: `highlight` showed it and only a sync could hide it. */
  lemma PassShown(f1: Form, f2: Form, f3: Form, r: Form, errors: seq<FieldError>, valid: seq<Field>)
    requires Highlighted(f1, f2, errors) && Unhighlighted(f2, f3, valid) && Synced(f3, r, GroupsOf(errors))
    ensures Valid(f1.summary) ==> forall i :: 0 <= i < |r.summary.entries| && r.summary.entries[i].field in ErrorIds(errors) && !ReachedFrom(f3.inline, GroupsOf(errors), r.summary.links, r.summary.entries[i].key) ==>
      r.summary.entries[i].shown
  {
    if Valid(f1.summary) {
      PassShownValid(f1, f2, f3, r, errors, valid);
    }
  }

  lemma PassShownValid(f1: Form, f2: Form, f3: Form, r: Form, errors: seq<FieldError>, valid: seq<Field>)
    requires Valid(f1.summary)
    requires Highlighted(f1, f2, errors) && Unhighlighted(f2, f3, valid) && Synced(f3, r, GroupsOf(errors))
    ensures forall i :: 0 <= i < |r.summary.entries| && r.summary.entries[i].field in ErrorIds(errors) && !ReachedFrom(f3.inline, GroupsOf(errors), r.summary.links, r.summary.entries[i].key) ==>
      r.summary.entries[i].shown
  {
    var ids := ErrorIds(errors);
    forall i | 0 <= i < |f2.summary.entries| && f2.summary.entries[i].field in ids
      ensures f2.summary.entries[i].shown
    {
      var x := f1.summary.entries[i].field;
      assert LinkedFrom(f1.summary.links, ids, f1.summary.entries[i].key) by {
        assert x in ids && x in f1.summary.links;
      }
    }
    WithoutMembers(f2.summary.entries, FieldIds(valid));
    forall i | 0 <= i < |f3.summary.entries| && f3.summary.entries[i].field in ids
      ensures f3.summary.entries[i].shown
    {
      assert f3.summary.entries[i] in f2.summary.entries;
    }
    forall i | 0 <= i < |r.summary.entries| && r.summary.entries[i].field in ids && !ReachedFrom(f3.inline, GroupsOf(errors), r.summary.links, r.summary.entries[i].key)
      ensures r.summary.entries[i].shown
    {
      assert r.summary.entries[i] == f3.summary.entries[i].(shown := r.summary.entries[i].shown);
    }
  }

  /** After a sync, an entry only one pushed group reaches is hidden exactly
      when a visible label after the first in that group reaches it. */
  lemma SyncedHides(f: Form, r: Form, groups: seq<GroupId>)
    requires Synced(f, r, groups)
    ensures forall g, i :: 0 <= i < |r.summary.entries| && OnlyFrom(f.inline, groups, r.summary.links, g, r.summary.entries[i].key) ==>
      r.summary.entries[i].shown == !Hidden(f.inline[g], r.summary.links, r.summary.entries[i].key, false)
  {
    forall g, i | 0 <= i < |r.summary.entries| && OnlyFrom(f.inline, groups, r.summary.links, g, r.summary.entries[i].key)
      ensures r.summary.entries[i].shown == !Hidden(f.inline[g], r.summary.links, r.summary.entries[i].key, false)
    {
      assert r.summary.entries[i].key == f.summary.entries[i].key;
    }
  }

  /** After a sync, a label of a synced group is displayed exactly when it
      is the first visible one. */
  lemma SyncedDisplays(f: Form, r: Form, groups: seq<GroupId>)
    requires Synced(f, r, groups)
    ensures forall g, j :: g in f.inline && g in groups && 0 <= j < |f.inline[g]| ==>
      Displayed(r.inline[g][j]) == (f.inline[g][j].visible && !VisibleBefore(f.inline[g], j))
  {
    forall g, j | g in f.inline && g in groups && 0 <= j < |f.inline[g]|
      ensures Displayed(r.inline[g][j]) == (f.inline[g][j].visible && !VisibleBefore(f.inline[g], j))
    {
      assert SameShape(r.inline[g], f.inline[g]);
    }
  }
}

=== FILE: groupsync.dfy ===
/**
 * `syncFieldGroupValidation`: reconciles the inline error labels of one field
 * group with the error-summary entries of their fields, so that only the
 * first visible inline error of the group is displayed.
 *
 * The first `.each` clears every label's hidden marker and shows the linked
 * summary entry; the labels still visible afterwards, except the first, then
 * get their summary entry hidden and the marker set again.
 */
module GroupSync {
  import opened Wrappers
  import opened ErrorSummary

  /** A `.label-error-msg` label of the group, in document order.
      `linked` is the field recorded as its `linked-element` (None when that
      set is empty); `visible` is whether the label counts as `:visible` once
      its marker is cleared, which the style sheet and the validation engine
      decide; `suppressed` is whether it carries `label-error-msgThidden`. */
  datatype ErrorLabel = ErrorLabel(linked: Option<FieldId>, visible: bool, suppressed: bool)

  /** The key of the summary entry a label reaches through its field's link. */
  function Target(l: ErrorLabel, links: map<FieldId, nat>): (r: Option<nat>)
    ensures r.Some? <==> l.linked.Some? && l.linked.value in links
  {
    if l.linked.Some? && l.linked.value in links then Some(links[l.linked.value]) else None
  }

  /** Some label of the group reaches the entry with key `k`. */
  ghost predicate Touched(labels: seq<ErrorLabel>, links: map<FieldId, nat>, k: nat) {
    exists j :: 0 <= j < |labels| && Target(labels[j], links) == Some(k)
  }

  ghost predicate VisibleBefore(labels: seq<ErrorLabel>, j: nat)
    requires j <= |labels|
  {
    exists i :: 0 <= i < j && labels[i].visible
  }

  /** Label `j` survives `.filter(':visible').filter(':gt(0)')`; `seen` says
      a visible label precedes all of `labels`. */
  ghost predicate Later(labels: seq<ErrorLabel>, j: nat, seen: bool)
    requires j < |labels|
  {
    labels[j].visible && (seen || VisibleBefore(labels, j))
  }

  /** Some label that survives the filter reaches the entry with key `k`. */
  ghost predicate Hidden(labels: seq<ErrorLabel>, links: map<FieldId, nat>, k: nat, seen: bool) {
    exists j :: 0 <= j < |labels| && Later(labels, j, seen) && Target(labels[j], links) == Some(k)
  }

  /** The final visibility of a summary entry after a sync. */
  ghost function Settled(labels: seq<ErrorLabel>, links: map<FieldId, nat>, e: Entry): bool {
    if Hidden(labels, links, e.key, false) then false else e.shown || Touched(labels, links, e.key)
  }

  /** A label that survives the filter reaches its entry, so hiding needs reaching. */
  lemma HiddenTouched(labels: seq<ErrorLabel>, links: map<FieldId, nat>, k: nat)
    ensures Hidden(labels, links, k, false) ==> Touched(labels, links, k)
  {
  }

  /** Same labels, up to their hidden markers. */
  predicate SameShape(a: seq<ErrorLabel>, b: seq<ErrorLabel>) {
    |a| == |b| && forall j :: 0 <= j < |a| ==> a[j].visible == b[j].visible && a[j].linked == b[j].linked
  }

  lemma TouchedSplit(labels: seq<ErrorLabel>, links: map<FieldId, nat>)
    requires |labels| > 0
    ensures forall k: nat :: Touched(labels, links, k) <==>
      Target(labels[0], links) == Some(k) || Touched(labels[1..], links, k)
  {
    forall k: nat
      ensures Touched(labels, links, k) <==> Target(labels[0], links) == Some(k) || Touched(labels[1..], links, k)
    {
      if Touched(labels[1..], links, k) {
        var j :| 0 <= j < |labels[1..]| && Target(labels[1..][j], links) == Some(k);
        assert labels[j + 1] == labels[1..][j];
      }
      if Touched(labels, links, k) {
        var j :| 0 <= j < |labels| && Target(labels[j], links) == Some(k);
        if j > 0 {
          assert labels[1..][j - 1] == labels[j];
        }
      }
    }
  }

  lemma LaterSplit(labels: seq<ErrorLabel>, seen: bool)
    requires |labels| > 0
    ensures Later(labels, 0, seen) == (seen && labels[0].visible)
    ensures forall j :: 1 <= j < |labels| ==>
      Later(labels, j, seen) == Later(labels[1..], j - 1, seen || labels[0].visible)
  {
    forall j | 1 <= j < |labels|
      ensures Later(labels, j, seen) == Later(labels[1..], j - 1, seen || labels[0].visible)
    {
      assert labels[1..][j - 1] == labels[j];
      if VisibleBefore(labels[1..], j - 1) {
        var i :| 0 <= i < j - 1 && labels[1..][i].visible;
        assert labels[i + 1] == labels[1..][i];
      }
      if VisibleBefore(labels, j) {
        var i :| 0 <= i < j && labels[i].visible;
        if i > 0 {
          assert labels[1..][i - 1] == labels[i];
        }
      }
    }
  }

  lemma HiddenSplit(labels: seq<ErrorLabel>, links: map<FieldId, nat>, seen: bool)
    requires |labels| > 0
    ensures forall k: nat :: Hidden(labels, links, k, seen) <==>
      (seen && labels[0].visible && Target(labels[0], links) == Some(k))
      || Hidden(labels[1..], links, k, seen || labels[0].visible)
  {
    LaterSplit(labels, seen);
    forall k: nat
      ensures Hidden(labels, links, k, seen) <==>
        (seen && labels[0].visible && Target(labels[0], links) == Some(k))
        || Hidden(labels[1..], links, k, seen || labels[0].visible)
    {
      if Hidden(labels[1..], links, k, seen || labels[0].visible) {
        var j :| 0 <= j < |labels[1..]| && Later(labels[1..], j, seen || labels[0].visible)
                 && Target(labels[1..][j], links) == Some(k);
        assert labels[j + 1] == labels[1..][j];
        assert Later(labels, j + 1, seen);
      }
      if Hidden(labels, links, k, seen) {
        var j :| 0 <= j < |labels| && Later(labels, j, seen) && Target(labels[j], links) == Some(k);
        if j > 0 {
          assert labels[1..][j - 1] == labels[j];
        }
      }
    }
  }

  /** The readings of a group do not depend on the hidden markers. */
  lemma SameShapeReadings(a: seq<ErrorLabel>, b: seq<ErrorLabel>, links: map<FieldId, nat>)
    requires SameShape(a, b)
    ensures forall j :: 0 <= j < |a| ==> Later(a, j, false) == Later(b, j, false)
    ensures forall k: nat :: Touched(a, links, k) == Touched(b, links, k)
    ensures forall k: nat :: Hidden(a, links, k, false) == Hidden(b, links, k, false)
  {
    forall j | 0 <= j < |a|
      ensures VisibleBefore(a, j) == VisibleBefore(b, j)
    {
      if VisibleBefore(a, j) {
        var i :| 0 <= i < j && a[i].visible;
        assert b[i].visible;
      }
      if VisibleBefore(b, j) {
        var i :| 0 <= i < j && b[i].visible;
        assert a[i].visible;
      }
    }
    forall k: nat
      ensures Touched(a, links, k) == Touched(b, links, k)
      ensures Hidden(a, links, k, false) == Hidden(b, links, k, false)
    {
      if Touched(a, links, k) {
        var j :| 0 <= j < |a| && Target(a[j], links) == Some(k);
        assert Target(b[j], links) == Some(k);
      }
      if Touched(b, links, k) {
        var j :| 0 <= j < |b| && Target(b[j], links) == Some(k);
        assert Target(a[j], links) == Some(k);
      }
      if Hidden(a, links, k, false) {
        var j :| 0 <= j < |a| && Later(a, j, false) && Target(a[j], links) == Some(k);
        assert Later(b, j, false) && Target(b[j], links) == Some(k);
      }
      if Hidden(b, links, k, false) {
        var j :| 0 <= j < |b| && Later(b, j, false) && Target(b[j], links) == Some(k);
        assert Later(a, j, false) && Target(a[j], links) == Some(k);
      }
    }
  }

  /** The first `.each`: every label loses its marker and every entry a label
      reaches is shown; no other entry changes. */
  function Unmark(labels: seq<ErrorLabel>, links: map<FieldId, nat>, es: seq<Entry>): (r: (seq<ErrorLabel>, seq<Entry>))
    ensures |r.0| == |labels| && forall j :: 0 <= j < |labels| ==> r.0[j] == labels[j].(suppressed := false)
    ensures |r.1| == |es|
    ensures forall i :: 0 <= i < |es| ==> r.1[i] == es[i].(shown := es[i].shown || Touched(labels, links, es[i].key))
    decreases |labels|
  {
    if |labels| == 0 then ([], es)
    else
      var es1 := match Target(labels[0], links)
        case Some(k) => SetShown(es, k, true)
        case None => es;
      var rest := Unmark(labels[1..], links, es1);
      TouchedSplit(labels, links);
      var r := ([labels[0].(suppressed := false)] + rest.0, rest.1);
      assert forall j :: 1 <= j < |labels| ==> r.0[j] == rest.0[j - 1] && labels[1..][j - 1] == labels[j];
      forall i | 0 <= i < |es|
        ensures r.1[i] == es[i].(shown := es[i].shown || Touched(labels, links, es[i].key))
      {
        assert es1[i].key == es[i].key;
      }
      r
  }

  /** The second `.each`, over the visible labels after the first: each one
      hides the entry it reaches and gets its marker back. */
  function Suppress(labels: seq<ErrorLabel>, links: map<FieldId, nat>, es: seq<Entry>, seen: bool): (r: (seq<ErrorLabel>, seq<Entry>))
    ensures |r.0| == |labels|
    ensures forall j :: 0 <= j < |labels| ==>
      r.0[j] == if Later(labels, j, seen) then labels[j].(suppressed := true) else labels[j]
    ensures |r.1| == |es|
    ensures forall i :: 0 <= i < |es| ==> r.1[i] == es[i].(shown := es[i].shown && !Hidden(labels, links, es[i].key, seen))
    decreases |labels|
  {
    if |labels| == 0 then ([], es)
    else
      var l := labels[0];
      var later := seen && l.visible;
      var es1 := if !later then es else match Target(l, links)
        case Some(k) => SetShown(es, k, false)
        case None => es;
      var rest := Suppress(labels[1..], links, es1, seen || l.visible);
      LaterSplit(labels, seen);
      HiddenSplit(labels, links, seen);
      var r := ([if later then l.(suppressed := true) else l] + rest.0, rest.1);
      assert forall j :: 1 <= j < |labels| ==> r.0[j] == rest.0[j - 1] && labels[1..][j - 1] == labels[j];
      forall i | 0 <= i < |es|
        ensures r.1[i] == es[i].(shown := es[i].shown && !Hidden(labels, links, es[i].key, seen))
      {
        assert es1[i].key == es[i].key;
      }
      r
  }

  /** `syncFieldGroupValidation` on one group: the labels that stay visible
      after the first get the marker, every other label loses it, and each
      summary entry ends hidden when such a label reaches it, shown when only
      other labels reach it, and untouched otherwise. */
  function Sync(labels: seq<ErrorLabel>, s: Summary): (r: (seq<ErrorLabel>, Summary))
    ensures r.1 == s.(entries := r.1.entries)
    ensures |r.0| == |labels|
    ensures forall j :: 0 <= j < |labels| ==> r.0[j] == labels[j].(suppressed := Later(labels, j, false))
    ensures |r.1.entries| == |s.entries|
    ensures forall i :: 0 <= i < |s.entries| ==>
      r.1.entries[i] == s.entries[i].(shown := Settled(labels, s.links, s.entries[i]))
    ensures Valid(s) ==> Valid(r.1)
  {
    var p1 := Unmark(labels, s.links, s.entries);
    var p2 := Suppress(p1.0, s.links, p1.1, false);
    SameShapeReadings(p1.0, labels, s.links);
    var r := (p2.0, s.(entries := p2.1));
    assert Valid(s) ==> Valid(r.1) by {
      if Valid(s) {
        assert SameNodes(s.entries, p2.1);
        ValidSameNodes(s, p2.1);
      }
    }
    r
  }

  /** A label is displayed inline when it is visible and carries no marker. */
  predicate Displayed(l: ErrorLabel) {
    l.visible && !l.suppressed
  }

  /** Syncing a group that was just synced changes nothing. `showErrors`
      pushes a group once per error in it, so one pass may sync it several
      times in a row. */
  lemma SyncIdempotent(labels: seq<ErrorLabel>, s: Summary)
    ensures Sync(Sync(labels, s).0, Sync(labels, s).1) == Sync(labels, s)
  {
    var r := Sync(labels, s);
    var r2 := Sync(r.0, r.1);
    assert SameShape(r.0, labels);
    SameShapeReadings(r.0, labels, s.links);
    assert r2.0 == r.0;
    forall i | 0 <= i < |s.entries|
      ensures r2.1.entries[i] == r.1.entries[i]
    {
      assert r.1.entries[i].key == s.entries[i].key;
    }
    assert r2.1.entries == r.1.entries;
  }

  /** After a sync, the only label displayed inline is the first visible
      one; a group with a visible label displays exactly one. */
  lemma SyncDisplaysFirstVisibleOnly(labels: seq<ErrorLabel>, s: Summary)
    ensures forall j :: 0 <= j < |labels| ==>
      (Displayed(Sync(labels, s).0[j]) <==> labels[j].visible && !VisibleBefore(labels, j))
    ensures forall j, j' :: 0 <= j < j' < |labels| ==>
      !(Displayed(Sync(labels, s).0[j]) && Displayed(Sync(labels, s).0[j']))
  {
    var r := Sync(labels, s);
    forall j, j' | 0 <= j < j' < |labels| && Displayed(r.0[j])
      ensures !Displayed(r.0[j'])
    {
      assert labels[j].visible;
      assert VisibleBefore(labels, j');
    }
  }

  /** Two labels reaching the same entry of a valid summary are linked to
      the same field. */
  lemma TargetInjective(a: ErrorLabel, b: ErrorLabel, s: Summary)
    requires Valid(s)
    ensures Target(a, s.links).Some? && Target(a, s.links) == Target(b, s.links) ==> a.linked == b.linked
  {
    if Target(a, s.links).Some? && Target(b, s.links).Some? && a.linked != b.linked {
      LinksInjective(s, a.linked.value, b.linked.value);
    }
  }

  /** Each label of the group reaches a different field. */
  predicate DistinctLinks(labels: seq<ErrorLabel>) {
    forall j, j' :: 0 <= j < j' < |labels| && labels[j].linked.Some? ==> labels[j].linked != labels[j'].linked
  }

  /** With one inline label per field, a reached entry ends shown exactly when
      its label is not a visible one after the first: the first visible label
      and every non-visible one have their entries shown, every later visible
      one has its entry hidden. */
  lemma SyncEntryFollowsLabel(labels: seq<ErrorLabel>, s: Summary)
    requires Valid(s) && DistinctLinks(labels)
    ensures forall j, i :: 0 <= j < |labels| && 0 <= i < |s.entries| && Target(labels[j], s.links) == Some(s.entries[i].key) ==>
      Sync(labels, s).1.entries[i].shown == !Later(labels, j, false)
  {
    var r := Sync(labels, s);
    forall j, i | 0 <= j < |labels| && 0 <= i < |s.entries| && Target(labels[j], s.links) == Some(s.entries[i].key)
      ensures r.1.entries[i].shown == !Later(labels, j, false)
    {
      var k := s.entries[i].key;
      assert Touched(labels, s.links, k);
      if Hidden(labels, s.links, k, false) {
        var j' :| 0 <= j' < |labels| && Later(labels, j', false) && Target(labels[j'], s.links) == Some(k);
        TargetInjective(labels[j'], labels[j], s);
        assert j' == j;
      }
    }
  }
}

=== FILE: labels.dfy ===
/**
 * The label a field is announced with in the error summary (`getLabelText`).
 *
 * The label element's text, or the group header's text when the label sits in
 * a `.field-group`, is normalised by two regular-expression replacements and
 * then suffixed with ": ".
 */
module Labels {
  import opened Wrappers

  /** A `.label-text` element: its own text and, when it is inside a
      `.field-group`, the text of that group's `.field-group-header`
      (the empty string when the group has no header element). */
  datatype FieldLabel = FieldLabel(text: string, groupHeader: Option<string>)

  /** The page's `.label-text` elements, keyed by their `for` attribute. */
  type LabelIndex = map<string, FieldLabel>

  predicate AllSpaces(s: string) {
    forall i :: 0 <= i < |s| ==> s[i] == ' '
  }

  /** `s` as a whole is matched by `:?[ ]*`: an optional colon, then spaces. */
  predicate ColonSpaceTail(s: string) {
    AllSpaces(s) || (|s| > 0 && s[0] == ':' && AllSpaces(s[1..]))
  }

  /** The replacement of `/\*$/`: a required-field marker is removed only when
      it is the very last character, and at most one is removed. */
  function DropMarker(s: string): (r: string)
    ensures |r| <= |s| && r == s[..|r|]
    ensures |s| - |r| <= 1
    ensures |r| < |s| <==> |s| > 0 && s[|s| - 1] == '*'
  {
    if |s| > 0 && s[|s| - 1] == '*' then s[..|s| - 1] else s
  }

  /** Removes every trailing space: the result is the longest prefix that does
      not end with a space, and only spaces were removed. */
  function TrimSpaces(s: string): (r: string)
    ensures |r| <= |s| && r == s[..|r|]
    ensures AllSpaces(s[|r|..])
    ensures r == [] || r[|r| - 1] != ' '
    decreases |s|
  {
    if |s| > 0 && s[|s| - 1] == ' ' then
      var r := TrimSpaces(s[..|s| - 1]);
      assert s[|r|..] == s[..|s| - 1][|r|..] + [' '];
      r
    else
      s
  }

  /** A character that is not a space blocks every earlier start position of
      a `:?[ ]*` tail. */
  lemma TailBlocked(s: string, k: nat)
    requires k < |s| && s[k] != ' '
    ensures forall i :: 0 <= i < k ==> !ColonSpaceTail(s[i..])
  {
    forall i | 0 <= i < k
      ensures !ColonSpaceTail(s[i..])
    {
      assert s[i..][k - i] == s[k];
      assert s[i..][1..][k - i - 1] == s[k];
    }
  }

  /** When the character before position `n` is neither a space nor a colon,
      no `:?[ ]*` tail starts before `n`. */
  lemma EndBlocked(s: string, n: nat)
    requires n <= |s|
    requires n > 0 ==> s[n - 1] != ' ' && s[n - 1] != ':'
    ensures forall i :: 0 <= i < n ==> !ColonSpaceTail(s[i..])
  {
    if n > 0 {
      TailBlocked(s, n - 1);
      assert s[n - 1..][0] == s[n - 1];
    }
  }

  /** The replacement of `/:?[ ]*$/`. A non-global JavaScript replace removes
      the leftmost match, so the result is the shortest prefix of `s` whose
      remainder is an optional colon followed by spaces. */
  function DropColonTail(s: string): (r: string)
    ensures |r| <= |s| && r == s[..|r|]
    ensures ColonSpaceTail(s[|r|..])
    ensures forall i :: 0 <= i < |r| ==> !ColonSpaceTail(s[i..])
  {
    var t := TrimSpaces(s);
    if |t| > 0 && t[|t| - 1] == ':' then
      TailBlocked(s, |t| - 1);
      assert s[|t| - 1..][1..] == s[|t|..];
      t[..|t| - 1]
    else
      EndBlocked(s, |t|);
      t
  }

  /** Label normalisation (the expression on line 133). */
  function Normalise(s: string): (r: string)
    ensures |r| >= 2 && r[|r| - 2..] == ": "
    ensures |r| - 2 <= |s| && r[..|r| - 2] == s[..|r| - 2]
    ensures s == "" ==> r == ": "
  {
    DropColonTail(DropMarker(s)) + ": "
  }

  /** `getLabelText`: a field inside a group is labelled with the group header,
      any other field with its own label, and a field without a label element
      with the empty text. */
  function LabelText(labels: LabelIndex, id: string): (r: string)
    ensures |r| >= 2 && r[|r| - 2..] == ": "
    ensures id !in labels ==> r == ": "
  {
    if id !in labels then Normalise("")
    else match labels[id].groupHeader
      case Some(header) => Normalise(header)
      case None => Normalise(labels[id].text)
  }

  /** The message of a summary entry: the label, then the validator's message. */
  function SummaryMessage(labels: LabelIndex, id: string, message: string): (r: string)
    ensures |r| >= |message| + 2 && r[|r| - |message|..] == message
  {
    LabelText(labels, id) + message
  }

  /** A summary message splits back into the field's label, which ends in
      ": ", and the validator's message, unchanged. */
  lemma SummaryMessageParts(labels: LabelIndex, id: string, message: string)
    ensures var r := SummaryMessage(labels, id, message);
      var n := |LabelText(labels, id)|;
      && n >= 2 && |r| == n + |message|
      && r[..n] == LabelText(labels, id)
      && r[n - 2..n] == ": "
      && r[n..] == message
  {
    ConcatParts(LabelText(labels, id), message);
  }

  lemma ConcatParts(l: string, m: string)
    requires |l| >= 2 && l[|l| - 2..] == ": "
    ensures (l + m)[..|l|] == l && (l + m)[|l| - 2..|l|] == ": " && (l + m)[|l|..] == m
  {
    assert (l + m)[|l| - 2..|l|] == l[|l| - 2..];
  }

  /** The leftmost-match reading of `/:?[ ]*$/` determines the result: any
      prefix length with the two properties of `DropColonTail` is its length. */
  lemma DropColonTailUnique(s: string, k: nat)
    requires k <= |s| && ColonSpaceTail(s[k..])
    requires forall i :: 0 <= i < k ==> !ColonSpaceTail(s[i..])
    ensures DropColonTail(s) == s[..k]
  {
  }

  /** A trailing marker after a space is removed together with the space. */
  lemma NormaliseStarExample()
    ensures Normalise("Name *") == "Name: "
  {
    assert DropMarker("Name *") == "Name ";
    EndBlocked("Name ", 4);
    DropColonTailUnique("Name ", 4);
  }

  /** A colon followed by several spaces collapses to one ": ". */
  lemma NormaliseColonExample()
    ensures Normalise("Email:  ") == "Email: "
  {
    assert DropMarker("Email:  ") == "Email:  ";
    EndBlocked("Email:  ", 5);
    DropColonTailUnique("Email:  ", 5);
  }

  /** A marker followed by a colon is not the last character, so it stays. */
  lemma NormaliseHiddenStarExample()
    ensures Normalise("Email*:  ") == "Email*: "
  {
    assert DropMarker("Email*:  ") == "Email*:  ";
    EndBlocked("Email*:  ", 6);
    DropColonTailUnique("Email*:  ", 6);
  }

  /** Normalising an already normalised label changes nothing, so the
      normalised form is a fixed point. */
  lemma NormaliseIdempotent(s: string)
    ensures Normalise(Normalise(s)) == Normalise(s)
  {
    var stem := DropColonTail(DropMarker(s));
    var n := stem + ": ";
    assert n == Normalise(s);
    assert DropMarker(n) == n;
    assert n[|stem|..] == ": ";
    assert n[|stem| + 1..][0] == ' ';
    TailBlocked(n, |stem|);
    DropColonTailUnique(n, |stem|);
  }

  /** A field inside a group is labelled with the group header and never with
      its own label text: members of one group share their summary label. */
  lemma GroupMembersShareLabel(labels: LabelIndex, a: string, b: string)
    requires a in labels && b in labels
    requires labels[a].groupHeader.Some? && labels[a].groupHeader == labels[b].groupHeader
    ensures LabelText(labels, a) == LabelText(labels, b)
    ensures LabelText(labels, a) == Normalise(labels[a].groupHeader.value)
  {
  }
}

=== FILE: markup.dfy ===
/**
 * The markup of one error-summary line item (`getErrorListItem`), built by
 * plain concatenation, and the reading of that markup back into its parts.
 */
module Markup {
  import opened Wrappers

  const ItemOpen: string := "<li><label for=\""
  const ItemMid: string := "\">"
  const ItemClose: string := "</label></li>"

  /** `<li><label for="id">message</label></li>`; neither part is escaped. */
  function ListItem(id: string, message: string): (r: string)
    ensures |r| == |ItemOpen| + |id| + |ItemMid| + |message| + |ItemClose|
    ensures r[..|ItemOpen|] == ItemOpen && r[|r| - |ItemClose|..] == ItemClose
    ensures r[|ItemOpen|..|ItemOpen| + |id|] == id
    ensures r[|ItemOpen| + |id| + |ItemMid|..|r| - |ItemClose|] == message
  {
    ItemOpen + id + ItemMid + message + ItemClose
  }

  /** Position of the first `c` in `s`, if any. */
  function IndexOf(s: string, c: char): (r: Option<nat>)
    ensures r.Some? ==> r.value < |s| && s[r.value] == c && c !in s[..r.value]
    ensures r.None? ==> c !in s
  {
    if |s| == 0 then None
    else if s[0] == c then Some(0)
    else match IndexOf(s[1..], c)
      case None => None
      case Some(i) =>
        assert s[..i + 1] == [s[0]] + s[1..][..i];
        Some(i + 1)
  }

  /** Reads a line item back: the `for` attribute runs up to the first quote. */
  function ParseListItem(markup: string): (r: Option<(string, string)>)
    ensures r.Some? ==> ListItem(r.value.0, r.value.1) == markup && '"' !in r.value.0
  {
    if |markup| < |ItemOpen| + |ItemClose| then None
    else if markup[..|ItemOpen|] != ItemOpen || markup[|markup| - |ItemClose|..] != ItemClose then None
    else
      var body := markup[|ItemOpen|..|markup| - |ItemClose|];
      match IndexOf(body, '"')
      case None => None
      case Some(q) =>
        if q + |ItemMid| <= |body| && body[q..q + |ItemMid|] == ItemMid then
          var id := body[..q];
          var message := body[q + |ItemMid|..];
          ReassembleItem(markup, body, q);
          Some((id, message))
        else None
  }

  lemma ReassembleItem(markup: string, body: string, q: nat)
    requires |markup| >= |ItemOpen| + |ItemClose|
    requires markup[..|ItemOpen|] == ItemOpen && markup[|markup| - |ItemClose|..] == ItemClose
    requires body == markup[|ItemOpen|..|markup| - |ItemClose|]
    requires q + |ItemMid| <= |body| && body[q..q + |ItemMid|] == ItemMid
    ensures ListItem(body[..q], body[q + |ItemMid|..]) == markup
  {
    assert body == body[..q] + ItemMid + body[q + |ItemMid|..];
    assert markup == ItemOpen + body + ItemClose;
  }

  /** Every item whose field id holds no quote reads back as the id and
      message it was built from. */
  lemma ParseListItemRoundTrip(id: string, message: string)
    requires '"' !in id
    ensures ParseListItem(ListItem(id, message)) == Some((id, message))
  {
    var markup := ListItem(id, message);
    var body := id + ItemMid + message;
    assert markup == ItemOpen + body + ItemClose;
    assert markup[|ItemOpen|..|markup| - |ItemClose|] == body;
    IndexOfAfterQuoteFree(id, ItemMid + message);
    assert body == id + (ItemMid + message);
    assert body[|id|..|id| + |ItemMid|] == ItemMid;
  }

  lemma IndexOfAfterQuoteFree(a: string, b: string)
    requires '"' !in a && |b| > 0 && b[0] == '"'
    ensures IndexOf(a + b, '"') == Some(|a|)
  {
    assert (a + b)[|a|] == '"';
  }
}

=== FILE: postcode.dfy ===
/**
 * The `postcode` rule the extension adds to the validation engine: a UK
 * postcode pattern, matched case-insensitively and without anchors, bypassed
 * when the engine reports the field as optional (not required and empty).
 *
 * Pattern:
 *   (GIR 0AA|[A-PR-UWYZ]([0-9][0-9A-HJKPS-UW]?|[A-HK-Y][0-9][0-9ABEHMNPRV-Y]?)[ ]?[0-9][ABD-HJLNP-UW-Z]{2})
 */
module Postcode {

  /** Case folding of a case-insensitive, non-unicode JavaScript pattern, as
      far as this pattern can tell: lower-case ASCII letters fold to upper
      case, and no other character folds onto an ASCII character. */
  function Upper(c: char): (u: char)
    ensures 'a' <= c <= 'z' ==> 'A' <= u <= 'Z' && u as int == c as int - 32
    ensures !('a' <= c <= 'z') ==> u == c
  {
    if 'a' <= c <= 'z' then (c as int - 32) as char else c
  }

  predicate Digit(c: char) {
    '0' <= c <= '9'
  }

  /** `[A-PR-UWYZ]`: the first letter of the area. */
  predicate AreaLetter(c: char) {
    var u := Upper(c);
    'A' <= u <= 'P' || 'R' <= u <= 'U' || u == 'W' || u == 'Y' || u == 'Z'
  }

  /** `[0-9A-HJKPS-UW]`: what may follow a district digit. */
  predicate DistrictTail(c: char) {
    var u := Upper(c);
    Digit(u) || 'A' <= u <= 'H' || u == 'J' || u == 'K' || u == 'P' || 'S' <= u <= 'U' || u == 'W'
  }

  /** `[A-HK-Y]`: the second letter of a two-letter area. */
  predicate AreaSecond(c: char) {
    var u := Upper(c);
    'A' <= u <= 'H' || 'K' <= u <= 'Y'
  }

  /** `[0-9ABEHMNPRV-Y]`: what may follow the district digit of a two-letter area. */
  predicate SubDistrict(c: char) {
    var u := Upper(c);
    Digit(u) || u == 'A' || u == 'B' || u == 'E' || u == 'H' || u == 'M' || u == 'N'
    || u == 'P' || u == 'R' || 'V' <= u <= 'Y'
  }

  /** `[ABD-HJLNP-UW-Z]`: a unit letter of the inward code. */
  predicate UnitLetter(c: char) {
    var u := Upper(c);
    u == 'A' || u == 'B' || 'D' <= u <= 'H' || u == 'J' || u == 'L' || u == 'N'
    || 'P' <= u <= 'U' || 'W' <= u <= 'Z'
  }

  /** `GIR 0AA`, in any letter case. */
  predicate Girobank(w: string) {
    |w| == 7 && forall i :: 0 <= i < 7 ==> Upper(w[i]) == "GIR 0AA"[i]
  }

  /** `([0-9][0-9A-HJKPS-UW]?|[A-HK-Y][0-9][0-9ABEHMNPRV-Y]?)` */
  predicate District(d: string) {
    || (|d| == 1 && Digit(d[0]))
    || (|d| == 2 && Digit(d[0]) && DistrictTail(d[1]))
    || (|d| == 2 && AreaSecond(d[0]) && Digit(d[1]))
    || (|d| == 3 && AreaSecond(d[0]) && Digit(d[1]) && SubDistrict(d[2]))
  }

  /** The outward code: an area letter followed by a district. */
  predicate Outward(o: string) {
    |o| >= 2 && AreaLetter(o[0]) && District(o[1..])
  }

  /** `[0-9][ABD-HJLNP-UW-Z]{2}`: the inward code. */
  predicate Inward(w: string) {
    |w| == 3 && Digit(w[0]) && UnitLetter(w[1]) && UnitLetter(w[2])
  }

  /** `w` as a whole is matched by the pattern. The inward code is always the
      last three characters, preceded by at most one space. */
  predicate Matches(w: string): (r: bool)
    ensures r ==> 5 <= |w| <= 8
  {
    || Girobank(w)
    || (|w| >= 3 && Inward(w[|w| - 3..]) &&
        (Outward(w[..|w| - 3]) || (|w| >= 4 && w[|w| - 4] == ' ' && Outward(w[..|w| - 4]))))
  }

  /** Every match has between five and eight characters. */
  lemma MatchLength(w: string)
    requires Matches(w)
    ensures 5 <= |w| <= 8
  {
  }

  /** `RegExp.prototype.test` on an unanchored pattern: some substring matches. */
  ghost predicate ContainsMatch(s: string) {
    exists i, j :: 0 <= i <= j <= |s| && Matches(s[i..j])
  }

  /** The rule as written: optional-and-empty passes; otherwise the value
      passes when a postcode occurs anywhere in it. */
  ghost predicate PostcodeRule(value: string, optional: bool) {
    optional || ContainsMatch(value)
  }

  /** The scan `test` performs: every start position, every match length. */
  method TestPostcode(value: string, optional: bool) returns (valid: bool)
    ensures valid <==> PostcodeRule(value, optional)
  {
    if optional {
      return true;
    }
    var i := 0;
    while i < |value|
      invariant 0 <= i <= |value|
      invariant forall a, b :: 0 <= a < i && a <= b <= |value| ==> !Matches(value[a..b])
    {
      var n := 5;
      while n <= 8 && i + n <= |value|
        invariant 5 <= n <= 9
        invariant forall b :: i <= b <= |value| && b < i + n ==> !Matches(value[i..b])
      {
        if Matches(value[i..i + n]) {
          return true;
        }
        n := n + 1;
      }
      forall b | i <= b <= |value|
        ensures !Matches(value[i..b])
      {
        if Matches(value[i..b]) {
          MatchLength(value[i..b]);
        }
      }
      i := i + 1;
    }
    if Matches(value[|value|..|value|]) {
      MatchLength(value[|value|..|value|]);
    }
    return false;
  }

  /** The rule with the pattern anchored at both ends (`^…$`): the value as a
      whole must be a postcode. */
  ghost predicate PostcodeRuleAnchored(value: string, optional: bool) {
    optional || Matches(value)
  }

  /** The rule with an anchored pattern: the whole value is matched once. */
  method TestPostcodeAnchored(value: string, optional: bool) returns (valid: bool)
    ensures valid <==> PostcodeRuleAnchored(value, optional)
    ensures valid && !optional ==> 5 <= |value| <= 8
  {
    valid := optional || Matches(value);
    if valid && !optional {
      MatchLength(value);
    }
  }

  /** The anchored rule accepts only values of postcode length, and only
      values the rule as written accepts too. */
  lemma AnchoredIsStricter(value: string, optional: bool)
    ensures PostcodeRuleAnchored(value, optional) ==> PostcodeRule(value, optional)
    ensures PostcodeRuleAnchored(value, false) ==> 5 <= |value| <= 8
  {
    if Matches(value) {
      assert value[0..|value|] == value;
      MatchLength(value);
    }
  }

  /** As written, a value that merely contains a postcode passes the rule. */
  lemma UnanchoredAcceptsSurroundingText()
    ensures PostcodeRule("not SW1A 1AA at all", false)
    ensures !PostcodeRuleAnchored("not SW1A 1AA at all", false)
  {
    var s := "not SW1A 1AA at all";
    assert s[4..12] == "SW1A 1AA";
    assert Matches(s[4..12]);
  }

  lemma PostcodeExamples()
    ensures PostcodeRule("SW1A 1AA", false)
    ensures PostcodeRule("gir 0aa", false)
    ensures !PostcodeRule("ZZZZ", false)
    ensures PostcodeRule("", true)
  {
    assert "SW1A 1AA"[0..8] == "SW1A 1AA";
    assert Matches("SW1A 1AA"[0..8]);
    assert "gir 0aa"[0..7] == "gir 0aa";
    assert Matches("gir 0aa"[0..7]);
    forall i, j | 0 <= i <= j <= 4
      ensures !Matches("ZZZZ"[i..j])
    {
      assert |"ZZZZ"[i..j]| < 5;
    }
  }
}

=== FILE: summary.dfy ===
/**
 * The error summary of a form: a header and an ordered list of entries, one
 * per invalid field, together with the link each field holds to its entry
 * (`element.$errorSummaryListItem`). Covers `initialiseErrorSummary`, the
 * create-or-update step of `showErrors`, and the summary side of
 * `highlight` and `unhighlight`.
 */
module ErrorSummary {
  import opened Wrappers

  type FieldId = string

  /** One `<li>` of the summary list. `key` stands for the identity of the
      list-item node; `field` is its `for` attribute. */
  datatype Entry = Entry(key: nat, field: FieldId, message: string, shown: bool)

  /** The `.form-errorSummary` container. `blank` holds while its markup is
      the empty string; `header` is the text of its `<h2>`, if it has one.
      `links` maps a field to the key of the entry it is linked to, and
      `nextKey` is the key the next created node receives. */
  datatype Summary = Summary(
    blank: bool,
    header: Option<string>,
    entries: seq<Entry>,
    links: map<FieldId, nat>,
    nextKey: nat)

  /** A page before any validation pass: an empty container, no links. */
  const Fresh: Summary := Summary(true, None, [], map[], 0)

  /** The states the hooks can reach: keys identify nodes, every entry is
      linked from the field it names, and every link leads to such an entry. */
  ghost predicate Valid(s: Summary) {
    && (s.blank ==> s.header.None? && s.entries == [])
    && (forall i :: 0 <= i < |s.entries| ==> s.entries[i].key < s.nextKey)
    && (forall i, j :: 0 <= i < j < |s.entries| ==> s.entries[i].key != s.entries[j].key)
    && (forall i :: 0 <= i < |s.entries| ==>
          s.entries[i].field in s.links && s.links[s.entries[i].field] == s.entries[i].key)
    && (forall f :: f in s.links ==>
          exists i :: 0 <= i < |s.entries| && s.entries[i].key == s.links[f] && s.entries[i].field == f)
  }

  /** A page before any validation pass is in a reachable state, so every
      promise below that assumes `Valid` applies from the first pass on. */
  lemma FreshValid()
    ensures Valid(Fresh)
  {
  }

  /** Field `f` is linked to an entry whose message is `m`. */
  ghost predicate Says(s: Summary, f: FieldId, m: string) {
    f in s.links && exists i :: 0 <= i < |s.entries| && s.entries[i].key == s.links[f] && s.entries[i].message == m
  }

  /** Field `f` is linked to an entry that is shown. */
  ghost predicate ShownFor(s: Summary, f: FieldId) {
    f in s.links && exists i :: 0 <= i < |s.entries| && s.entries[i].key == s.links[f] && s.entries[i].shown
  }

  /** The entry a linked field leads to in a valid summary is unique, and no
      other entry names that field. */
  lemma LinkedIndex(s: Summary, f: FieldId) returns (i: nat)
    requires Valid(s) && f in s.links
    ensures i < |s.entries| && s.entries[i].key == s.links[f] && s.entries[i].field == f
    ensures forall j :: 0 <= j < |s.entries| && s.entries[j].key == s.links[f] ==> j == i
    ensures forall j :: 0 <= j < |s.entries| && s.entries[j].field == f ==> j == i
  {
    i :| 0 <= i < |s.entries| && s.entries[i].key == s.links[f] && s.entries[i].field == f;
  }

  /** Two linked fields never share an entry. */
  lemma LinksInjective(s: Summary, f: FieldId, g: FieldId)
    requires Valid(s) && f in s.links && g in s.links && f != g
    ensures s.links[f] != s.links[g]
  {
    var i := LinkedIndex(s, f);
    var j := LinkedIndex(s, g);
  }

  /** The entries with `shown` set to `b` on the node with key `k`. */
  function SetShown(es: seq<Entry>, k: nat, b: bool): (r: seq<Entry>)
    ensures |r| == |es|
    ensures forall i :: 0 <= i < |es| ==> r[i] == if es[i].key == k then es[i].(shown := b) else es[i]
  {
    seq(|es|, i requires 0 <= i < |es| => if es[i].key == k then es[i].(shown := b) else es[i])
  }

  /** The entries with the label html of the node with key `k` replaced. */
  function Relabel(es: seq<Entry>, k: nat, message: string): (r: seq<Entry>)
    ensures |r| == |es|
    ensures forall i :: 0 <= i < |es| ==> r[i] == if es[i].key == k then es[i].(message := message) else es[i]
  {
    seq(|es|, i requires 0 <= i < |es| => if es[i].key == k then es[i].(message := message) else es[i])
  }

  /** Position of the first entry with key `k`. */
  function FindKey(es: seq<Entry>, k: nat): (r: Option<nat>)
    ensures r.Some? ==> r.value < |es| && es[r.value].key == k
    ensures r.None? ==> forall i :: 0 <= i < |es| ==> es[i].key != k
  {
    if |es| == 0 then None
    else if es[0].key == k then Some(0)
    else match FindKey(es[1..], k)
      case None => None
      case Some(i) => Some(i + 1)
  }

  /** `initialiseErrorSummary`: an empty container receives a header and an
      empty list; otherwise only the text of an existing header changes. */
  function Initialise(s: Summary, headerText: string): (r: Summary)
    ensures !r.blank && r.links == s.links && r.nextKey == s.nextKey
    ensures s.blank ==> r.header == Some(headerText) && r.entries == []
    ensures !s.blank ==> r.entries == s.entries && r.header.Some? == s.header.Some?
    ensures !s.blank && s.header.Some? ==> r.header == Some(headerText)
    ensures Valid(s) ==> Valid(r)
  {
    if s.blank then s.(blank := false, header := Some(headerText), entries := [])
    else if s.header.Some? then s.(header := Some(headerText))
    else s
  }

  /** Running the initialiser again with the same header changes nothing:
      one header, and the list is neither duplicated nor emptied. */
  lemma InitialiseIdempotent(s: Summary, headerText: string)
    ensures Initialise(Initialise(s, headerText), headerText) == Initialise(s, headerText)
  {
  }

  /** `a` and `b` hold the same nodes in the same order: only the message
      and shown flag of an entry may differ. */
  predicate SameNodes(a: seq<Entry>, b: seq<Entry>) {
    |a| == |b| && forall i :: 0 <= i < |a| ==> a[i].key == b[i].key && a[i].field == b[i].field
  }

  /** Changing messages or visibility of entries keeps a summary valid. */
  lemma ValidSameNodes(s: Summary, es: seq<Entry>)
    requires Valid(s) && SameNodes(s.entries, es) && (s.blank ==> es == [])
    ensures Valid(s.(entries := es))
  {
    var r := s.(entries := es);
    forall f | f in r.links
      ensures exists i :: 0 <= i < |es| && es[i].key == r.links[f] && es[i].field == f
    {
      var i := LinkedIndex(s, f);
      assert es[i].key == s.entries[i].key;
    }
  }

  /** Appending a fresh entry for an unlinked field keeps a summary valid. */
  lemma AppendValid(s: Summary, field: FieldId, message: string)
    requires Valid(s) && !s.blank && field !in s.links
    ensures Valid(Summary(false, s.header, s.entries + [Entry(s.nextKey, field, message, true)],
                          s.links[field := s.nextKey], s.nextKey + 1))
  {
    var e := Entry(s.nextKey, field, message, true);
    var r := Summary(false, s.header, s.entries + [e], s.links[field := s.nextKey], s.nextKey + 1);
    assert r.entries[|s.entries|] == e;
    forall i | 0 <= i < |s.entries|
      ensures r.entries[i] == s.entries[i] && s.entries[i].field != field
    {
    }
    forall f | f in r.links
      ensures exists i :: 0 <= i < |r.entries| && r.entries[i].key == r.links[f] && r.entries[i].field == f
    {
      if f != field {
        var i := LinkedIndex(s, f);
        assert r.entries[i] == s.entries[i];
      }
    }
  }

  /** Messages of other fields survive a change that keeps the links and
      touches only the messages of entries with key `k`. */
  lemma OthersSay(s: Summary, r: Summary, field: FieldId)
    requires Valid(s) && field in s.links && r.links == s.links
    requires |r.entries| == |s.entries|
    requires forall i :: 0 <= i < |s.entries| && s.entries[i].key != s.links[field] ==> r.entries[i] == s.entries[i]
    ensures forall g, m :: g != field && Says(s, g, m) ==> Says(r, g, m)
  {
    forall g, m | g != field && Says(s, g, m)
      ensures Says(r, g, m)
    {
      LinksInjective(s, field, g);
      var i :| 0 <= i < |s.entries| && s.entries[i].key == s.links[g] && s.entries[i].message == m;
      assert r.entries[i] == s.entries[i];
    }
  }

  /** Messages of other fields survive appending an entry. */
  lemma OthersSayAfterAppend(s: Summary, r: Summary, field: FieldId)
    requires Valid(s) && field !in s.links && r.links == s.links[field := s.nextKey]
    requires |r.entries| > |s.entries| && r.entries[..|s.entries|] == s.entries
    ensures forall g, m :: g != field && Says(s, g, m) ==> Says(r, g, m)
  {
    forall g, m | g != field && Says(s, g, m)
      ensures Says(r, g, m)
    {
      var i :| 0 <= i < |s.entries| && s.entries[i].key == s.links[g] && s.entries[i].message == m;
      assert r.entries[i] == r.entries[..|s.entries|][i];
    }
  }

  /** The create-or-update step of `showErrors` for one error: a field without
      a linked entry gets a new, shown entry appended at the end of the list;
      a linked field has its entry's message replaced in place. */
  function Record(s: Summary, field: FieldId, message: string): (r: Summary)
    requires !s.blank
    ensures !r.blank && r.header == s.header && field in r.links
    ensures field !in s.links ==>
      && r.entries == s.entries + [Entry(s.nextKey, field, message, true)]
      && r.links == s.links[field := s.nextKey]
      && r.nextKey == s.nextKey + 1
    ensures field in s.links ==>
      && r.links == s.links && r.nextKey == s.nextKey
      && |r.entries| == |s.entries|
      && forall i :: 0 <= i < |s.entries| ==>
           r.entries[i] == if s.entries[i].key == s.links[field] then s.entries[i].(message := message) else s.entries[i]
    ensures Valid(s) ==> Valid(r) && Says(r, field, message)
    ensures Valid(s) ==> forall g, m :: g != field && Says(s, g, m) ==> Says(r, g, m)
  {
    if field in s.links then
      RelabelFacts(s, field, message);
      s.(entries := Relabel(s.entries, s.links[field], message))
    else
      AppendFacts(s, field, message);
      Summary(false, s.header, s.entries + [Entry(s.nextKey, field, message, true)], s.links[field := s.nextKey], s.nextKey + 1)
  }

  lemma RelabelFacts(s: Summary, field: FieldId, message: string)
    requires field in s.links
    ensures var r := s.(entries := Relabel(s.entries, s.links[field], message));
      Valid(s) ==> Valid(r) && Says(r, field, message) && forall g, m :: g != field && Says(s, g, m) ==> Says(r, g, m)
  {
    var es := Relabel(s.entries, s.links[field], message);
    var r := s.(entries := es);
    if Valid(s) {
      assert SameNodes(s.entries, es);
      ValidSameNodes(s, es);
      var i := LinkedIndex(s, field);
      assert es[i].message == message;
      assert Says(r, field, message);
      OthersSay(s, r, field);
    }
  }

  lemma AppendFacts(s: Summary, field: FieldId, message: string)
    requires field !in s.links
    ensures var r := Summary(false, s.header, s.entries + [Entry(s.nextKey, field, message, true)], s.links[field := s.nextKey], s.nextKey + 1);
      Valid(s) && !s.blank ==> Valid(r) && Says(r, field, message) && forall g, m :: g != field && Says(s, g, m) ==> Says(r, g, m)
  {
    var e := Entry(s.nextKey, field, message, true);
    var r := Summary(false, s.header, s.entries + [e], s.links[field := s.nextKey], s.nextKey + 1);
    assert r.entries[|s.entries|] == e;
    if Valid(s) && !s.blank {
      AppendValid(s, field, message);
      assert r.entries[..|s.entries|] == s.entries;
      OthersSayAfterAppend(s, r, field);
    }
  }

  /** Recording the same message twice is the same as recording it once. */
  lemma RecordIdempotent(s: Summary, field: FieldId, message: string)
    requires !s.blank && Valid(s)
    ensures Record(Record(s, field, message), field, message) == Record(s, field, message)
  {
    var r := Record(s, field, message);
    var k := r.links[field];
    var i := LinkedIndex(r, field);
    assert r.entries[i].message == message;
    RelabelUnchanged(r.entries, k, message);
  }

  /** Relabelling with the message a node already carries changes nothing. */
  lemma RelabelUnchanged(es: seq<Entry>, k: nat, message: string)
    requires forall i :: 0 <= i < |es| && es[i].key == k ==> es[i].message == message
    ensures Relabel(es, k, message) == es
  {
    var r := Relabel(es, k, message);
    assert forall i :: 0 <= i < |es| ==> r[i] == es[i];
  }

  /** The summary side of `highlight`: re-shows the field's linked entry, if
      any. It never creates, removes or re-orders an entry. */
  function Reveal(s: Summary, field: FieldId): (r: Summary)
    ensures r.links == s.links && r.blank == s.blank && r.header == s.header && r.nextKey == s.nextKey
    ensures |r.entries| == |s.entries|
    ensures forall i :: 0 <= i < |s.entries| ==>
      r.entries[i] == if field in s.links && s.entries[i].key == s.links[field] then s.entries[i].(shown := true) else s.entries[i]
    ensures Valid(s) ==> Valid(r)
    ensures Valid(s) && field in s.links ==> ShownFor(r, field)
  {
    if field in s.links then
      var r := s.(entries := SetShown(s.entries, s.links[field], true));
      assert Valid(s) ==> ShownFor(r, field) by {
        if Valid(s) {
          var i := LinkedIndex(s, field);
          assert r.entries[i].shown;
        }
      }
      r
    else s
  }

  /** The summary side of `unhighlight`: the field's linked entry leaves the
      list and the link is deleted; every other entry stays, in order. */
  function Drop(s: Summary, field: FieldId): (r: Summary)
    ensures r.links == s.links - {field}
    ensures r.blank == s.blank && r.header == s.header && r.nextKey == s.nextKey
    ensures field !in s.links ==> r == s
    ensures Valid(s) && field in s.links ==>
      exists i :: 0 <= i < |s.entries| && s.entries[i].field == field && r.entries == s.entries[..i] + s.entries[i + 1..]
    ensures Valid(s) ==> Valid(r)
  {
    if field !in s.links then s
    else match FindKey(s.entries, s.links[field])
      case None => s.(links := s.links - {field})
      case Some(i) =>
        var r := s.(entries := s.entries[..i] + s.entries[i + 1..], links := s.links - {field});
        assert Valid(s) ==> Valid(r) && s.entries[i].field == field by {
          if Valid(s) {
            var w := LinkedIndex(s, field);
            assert w == i;
            SpliceValid(s, i, field);
          }
        }
        r
  }

  /** Removing the one entry of a linked field and its link keeps the
      summary valid. */
  lemma SpliceValid(s: Summary, i: nat, field: FieldId)
    requires Valid(s) && field in s.links && i < |s.entries|
    requires s.entries[i].field == field && s.entries[i].key == s.links[field]
    ensures Valid(s.(entries := s.entries[..i] + s.entries[i + 1..], links := s.links - {field}))
  {
    var rs := s.entries[..i] + s.entries[i + 1..];
    SpliceAt(s.entries, rs, i);
    SpliceKeys(s, rs, i);
    SpliceLinked(s, rs, i, field);
    SpliceCovered(s, rs, i, field);
  }

  /** A splice keeps keys below `nextKey` and pairwise distinct. */
  lemma SpliceKeys(s: Summary, rs: seq<Entry>, i: nat)
    requires Valid(s) && i < |s.entries| && |rs| == |s.entries| - 1
    requires forall j :: 0 <= j < |rs| ==> rs[j] == s.entries[if j < i then j else j + 1]
    ensures forall j :: 0 <= j < |rs| ==> rs[j].key < s.nextKey
    ensures forall j, j' :: 0 <= j < j' < |rs| ==> rs[j].key != rs[j'].key
  {
    forall j, j' | 0 <= j < j' < |rs|
      ensures rs[j].key != rs[j'].key
    {
      var jj := if j < i then j else j + 1;
      var jj' := if j' < i then j' else j' + 1;
      assert rs[j] == s.entries[jj] && rs[j'] == s.entries[jj'];
    }
  }

  /** Every entry left after a splice keeps its link. */
  lemma SpliceLinked(s: Summary, rs: seq<Entry>, i: nat, field: FieldId)
    requires Valid(s) && i < |s.entries| && s.entries[i].field == field && |rs| == |s.entries| - 1
    requires forall j :: 0 <= j < |rs| ==> rs[j] == s.entries[if j < i then j else j + 1]
    ensures forall j :: 0 <= j < |rs| ==>
      rs[j].field in s.links - {field} && (s.links - {field})[rs[j].field] == rs[j].key
  {
    forall j | 0 <= j < |rs|
      ensures rs[j].field in s.links - {field} && (s.links - {field})[rs[j].field] == rs[j].key
    {
      var jj := if j < i then j else j + 1;
      assert rs[j] == s.entries[jj];
    }
  }

  /** Every link left after a splice still has its entry. */
  lemma SpliceCovered(s: Summary, rs: seq<Entry>, i: nat, field: FieldId)
    requires Valid(s) && field in s.links && i < |s.entries| && |rs| == |s.entries| - 1
    requires s.entries[i].key == s.links[field]
    requires forall j :: 0 <= j < |rs| ==> rs[j] == s.entries[if j < i then j else j + 1]
    ensures forall f :: f in s.links - {field} ==>
      exists j :: 0 <= j < |rs| && rs[j].key == s.links[f] && rs[j].field == f
  {
    forall f | f in s.links - {field}
      ensures exists j :: 0 <= j < |rs| && rs[j].key == s.links[f] && rs[j].field == f
    {
      var w := LinkedIndex(s, f);
      var j := if w < i then w else w - 1;
      assert rs[j] == s.entries[w];
    }
  }

  /** Where each entry of a splice comes from. */
  lemma SpliceAt(es: seq<Entry>, rs: seq<Entry>, i: nat)
    requires i < |es| && rs == es[..i] + es[i + 1..]
    ensures |rs| == |es| - 1
    ensures forall j :: 0 <= j < |rs| ==> rs[j] == es[if j < i then j else j + 1]
  {
  }

  /** After `unhighlight`, the next error for the same field creates a fresh
      entry at the end of the list rather than resurrecting the old one. */
  lemma DropThenRecordIsFresh(s: Summary, field: FieldId, message: string)
    requires Valid(s) && !s.blank && field in s.links
    ensures var r := Record(Drop(s, field), field, message);
      && r.links[field] == s.nextKey
      && r.links[field] != s.links[field]
      && r.entries[|r.entries| - 1] == Entry(s.nextKey, field, message, true)
      && |r.entries| == |s.entries|
  {
    var i := LinkedIndex(s, field);
  }

  /** `b` holds the entries of `a` with at most their shown flags changed. */
  predicate Reshown(a: seq<Entry>, b: seq<Entry>) {
    |a| == |b| && forall i :: 0 <= i < |a| ==> b[i] == a[i].(shown := b[i].shown)
  }

  /** Showing or hiding entries keeps every field's message. */
  lemma SaysReshown(s: Summary, es: seq<Entry>)
    requires Reshown(s.entries, es)
    ensures forall f, m :: Says(s, f, m) ==> Says(s.(entries := es), f, m)
  {
    forall f, m | Says(s, f, m)
      ensures Says(s.(entries := es), f, m)
    {
      var i :| 0 <= i < |s.entries| && s.entries[i].key == s.links[f] && s.entries[i].message == m;
      assert es[i] == s.entries[i].(shown := es[i].shown);
    }
  }

  /** The entries whose field is not in `ids`, in list order: what a run of
      `unhighlight` calls on the fields in `ids` leaves of the list. */
  function Without(es: seq<Entry>, ids: set<FieldId>): (r: seq<Entry>)
    ensures |r| <= |es|
  {
    if |es| == 0 then []
    else (if es[0].field in ids then [] else [es[0]]) + Without(es[1..], ids)
  }

  /** `Without` keeps exactly the entries of the other fields. */
  lemma {:induction false} WithoutMembers(es: seq<Entry>, ids: set<FieldId>)
    ensures forall e :: e in Without(es, ids) <==> e in es && e.field !in ids
    decreases |es|
  {
    if |es| > 0 {
      WithoutMembers(es[1..], ids);
      assert es == [es[0]] + es[1..];
    }
  }

  lemma {:induction false} WithoutAppend(a: seq<Entry>, b: seq<Entry>, ids: set<FieldId>)
    ensures Without(a + b, ids) == Without(a, ids) + Without(b, ids)
    decreases |a|
  {
    if |a| == 0 {
      assert a + b == b;
    } else {
      assert (a + b)[0] == a[0] && (a + b)[1..] == a[1..] + b;
      WithoutAppend(a[1..], b, ids);
    }
  }

  lemma {:induction false} WithoutNone(es: seq<Entry>, ids: set<FieldId>)
    requires forall i :: 0 <= i < |es| ==> es[i].field !in ids
    ensures Without(es, ids) == es
    decreases |es|
  {
    if |es| > 0 {
      WithoutNone(es[1..], ids);
    }
  }

  /** Removing the fields of `a` and then those of `b` removes the fields of both. */
  lemma {:induction false} WithoutTwice(es: seq<Entry>, a: set<FieldId>, b: set<FieldId>)
    ensures Without(Without(es, a), b) == Without(es, a + b)
    decreases |es|
  {
    if |es| > 0 {
      WithoutTwice(es[1..], a, b);
      WithoutAppend(if es[0].field in a then [] else [es[0]], Without(es[1..], a), b);
    }
  }

  /** In a valid summary, `unhighlight` removes exactly the entries of its
      field: the list it leaves is the old one without that field. */
  lemma DropIsWithout(s: Summary, field: FieldId)
    requires Valid(s)
    ensures Drop(s, field).entries == Without(s.entries, {field})
  {
    if field !in s.links {
      UnlinkedIsWithout(s, field);
    } else {
      var j := DropAt(s, field);
      SpliceIsWithout(s.entries, j, field);
    }
  }

  /** In a valid summary, an unlinked field has no entry to remove. */
  lemma UnlinkedIsWithout(s: Summary, field: FieldId)
    requires Valid(s) && field !in s.links
    ensures Without(s.entries, {field}) == s.entries
  {
    WithoutNone(s.entries, {field});
  }

  /** The position `unhighlight` cuts the field's entry out at. */
  lemma DropAt(s: Summary, field: FieldId) returns (j: nat)
    requires Valid(s) && field in s.links
    ensures j < |s.entries| && s.entries[j].field == field
    ensures forall k :: 0 <= k < |s.entries| && s.entries[k].field == field ==> k == j
    ensures Drop(s, field).entries == s.entries[..j] + s.entries[j + 1..]
  {
    var i := LinkedIndex(s, field);
    var es := Drop(s, field).entries;
    j :| 0 <= j < |s.entries| && s.entries[j].field == field && es == s.entries[..j] + s.entries[j + 1..];
    assert j == i;
  }

  /** Cutting out the one entry of `field` is removing that field. */
  lemma {:induction false} SpliceIsWithout(es: seq<Entry>, i: nat, field: FieldId)
    requires i < |es| && es[i].field == field
    requires forall j :: 0 <= j < |es| && es[j].field == field ==> j == i
    ensures Without(es, {field}) == es[..i] + es[i + 1..]
    decreases i
  {
    if i == 0 {
      WithoutNone(es[1..], {field});
    } else {
      SpliceIsWithout(es[1..], i - 1, field);
      assert es[1..][..i - 1] + es[1..][i..] == es[1..i] + es[i + 1..];
      assert es[..i] + es[i + 1..] == [es[0]] + (es[1..i] + es[i + 1..]);
    }
  }

  /** Removing the entries and links of `ids` keeps what every other field says. */
  lemma WithoutSays(s: Summary, ids: set<FieldId>, r: Summary)
    requires Valid(s) && r == s.(entries := Without(s.entries, ids), links := s.links - ids)
    ensures forall g, m :: g !in ids && Says(s, g, m) ==> Says(r, g, m)
  {
    forall g, m | g !in ids && Says(s, g, m)
      ensures Says(r, g, m)
    {
      var i := LinkedIndex(s, g);
      var j :| 0 <= j < |s.entries| && s.entries[j].key == s.links[g] && s.entries[j].message == m;
      assert j == i;
      WithoutMembers(s.entries, ids);
      assert s.entries[i] in r.entries;
    }
  }
}

=== FILE: wrappers.dfy ===
/** Optional values: a jQuery lookup that may find nothing. */
module Wrappers {

  datatype Option<+T> = None | Some(value: T)
}
